=== FILE: README.md ===
# Leo line chart, modelled in Dafny

Leo is a Swift line-chart view. A chart shows one or more segments of data points, each point a pair `(x, y)`. It maps them from data space into the view's rectangle, flips y and builds a bezier path. When a new view model replaces the old one, it morphs the old path into the new one. Touches select the segments under them. A sparkline renderer draws the same data into a small graphics context.

The logic under the UIKit layer is pure arithmetic and sequence code. This project models that code as immutable datatypes and pure functions, and proves what it promises. Coordinates are `real`.

| module (file) | what it models |
|---|---|
| `Optional` (optional.dfy) | Swift's optionals as `Option` |
| `Sorting` (sorting.dfy) | `sorted { $0.key < $1.key }` as insertion sort, specified as "sorted and a permutation" |
| `Reals` (reals.dfy) | order facts about scaling that the mapping proofs reuse |
| `Geometry` (geometry.dfy) | points, segments, the data window, rectangles, `flatMap { $0.dataPoints }`, and paths as lists of move/line elements |
| `Matching` (matching.dfy) | `normalize`, `denormalize`, `points(surrounding:)`, `point(closestTo:)` and `interpolate`, which are written identically in all three resampler versions |
| `Resampler` (resampler.dfy) | `createAnimationStartPoints` / `createAnimationEndPoints` of the multi-segment chart view: interpolate on grow, duplicate on shrink |
| `EarlyResampler` (early_resampler.dfy) | `Path.swift`: nearest match only, plus `Path.path(from:)` |
| `ChartView` (chart_view.dfy) | the multi-segment chart view's coordinate mapping into the inset rectangle, its inverse, `path(from:)` and `compoundPath` |
| `ChartViewAnimation` (chart_view_animation.dfy) | the multi-segment chart view's `configure`, `animate`, `createAnimationStartPath`/`EndPath` and `existingAnimationPoints` |
| `Selection` (selection.dfy) | hit-testing (`selectedDataPoint`, `segmentIndex`), the touch `SelectionState` machine, and the segments `selectSegments` highlights |
| `Extent` (extent.dfy) | the default-bounds rule both view models share: explicit value, else the min/max of the sorted points, else 0 |
| `ChartData` (chart_data.dfy) | `Data/LineChartDataSet.swift`: the non-empty-segment assertion, `isEmpty` and `allDataPoints` |
| `ViewModel` (view_model.dfy) | `LineChartViewModel/LineChartViewModel.swift`: styled data set, derived bounds, ranges, `segments` and `allDataPoints` |
| `LegacyViewModel` (legacy_view_model.dfy) | `ViewModel/LineChartViewModel.swift`: the earlier view model over an un-styled data set |
| `LegacyChartView` (legacy_chart_view.dfy) | the earlier single-line chart view: un-inset mapping, `path(from:)`, the resampler it shares, `configure`/`animate` and the animation-duration constants |
| `Sparkline` (sparkline.dfy) | `SparklineRenderer.swift`, as the sequence of drawing commands it issues |

Touch locations, the in-flight animation's points and the view's size are inputs to the model. Touches are plain identifiers, and their locations are a function parameter.

## Model

| member | source | states |
|---|---|---|
| Sorting.SortBy | Leo/Leo/LineChartViewModel/LineChartViewModel.swift:31-32 | the sort's result is ordered by the key and is a permutation of its input |
| Sorting.SortedFirstIsLeast | Leo/Leo/LineChartViewModel/LineChartViewModel.swift:34 | the first element of any sorted permutation is an input element whose key is least |
| Sorting.SortedLastIsGreatest | Leo/Leo/LineChartViewModel/LineChartViewModel.swift:35 | the last element of any sorted permutation is an input element whose key is greatest |
| Geometry.Flatten | Leo/Leo/Data/LineChartDataSet.swift:34-36 | the concatenation's length is the sum of the segment lengths, and it starts with the first segment |
| Geometry.FlattenMembership | Leo/Leo/Data/LineChartDataSet.swift:34-36 | a point is in the concatenation exactly when it is in one of the segments |
| Geometry.FlattenAppend | Leo/Leo/LineChartView.swift:169-170 | flattening distributes over joining segment lists |
| Geometry.Polyline | Leo/Leo/LineChartView/LineChartView.swift:124-131 | element i goes to point i, and only the first element is a move |
| Geometry.PolylineRoundTrip | Leo/Leo/LineChartView/LineChartView.swift:124-131 | reading the points back from a polyline gives the points; a polyline has one move, or none when empty |
| Geometry.MovesAppend | Leo/Leo/LineChartView/LineChartView.swift:111 | appending paths adds their subpath counts |
| Matching.Normalize | Leo/Leo/LineChartView/LineChartView.swift:337-342 | y is kept; the collection's first x maps to 0 and its last x to 1 |
| Matching.Denormalize | Leo/Leo/LineChartView/LineChartView.swift:344-349 | y is kept; 0 maps to the first x and 1 to the last x |
| Matching.NormalizeRoundTrip | Leo/Leo/LineChartView/LineChartView.swift:337-349 | denormalize undoes normalize in the same collection, and the other way round |
| Matching.NormalizeMonotone | Leo/Leo/LineChartView/LineChartView.swift:337-342 | over a positive span, normalising keeps and reflects the order of x |
| Matching.DenormalizeMonotone | Leo/Leo/LineChartView/LineChartView.swift:344-349 | over a positive span, denormalising keeps and reflects the order of x |
| Matching.DenormalizeCollinear | Leo/Leo/LineChartView/LineChartView.swift:344-349 | denormalising stretches x by a common factor and keeps y, so three points on a line stay on a line |
| Matching.NormalizedCollection | Leo/Leo/LineChartView/LineChartView.swift:258-264 | a collection normalised in itself starts at 0, ends at 1, stays sorted, lies in [0, 1] and denormalises back to itself |
| Matching.FirstAbove | Leo/Leo/LineChartView/LineChartView.swift:357-359 | the scan stops at the first index whose x exceeds the query, and every index before it is at or below |
| Matching.SurroundingIndex | Leo/Leo/LineChartView/LineChartView.swift:356-365 | the pair is adjacent, its left x is at or below the query, its right x is the first above it when one exists, and it is the last pair otherwise |
| Matching.Closest | Leo/Leo/LineChartView/LineChartView.swift:351-354 | the result is a member of the collection, and the left neighbour wins only when strictly nearer, so ties go right |
| Matching.ClosestIsNearest | Leo/Leo/LineChartView/LineChartView.swift:351-365 | on a list sorted by x, no element is nearer to the query in x than the result |
| Matching.ClosestDenormalizes | Leo/Leo/LineChartView/LineChartView.swift:309-318 | the match in a normalised collection denormalises to one of the collection's own points |
| Matching.NearestDenormalized | Leo/Leo/LineChartView/LineChartView.swift:351-354 | the closest normalised point, denormalised, is one of the collection's points, and no point of the collection is nearer in normalised x |
| Matching.Interpolate | Leo/Leo/LineChartView/LineChartView.swift:367-376 | the result has the query's x and lies on the line through both neighbours |
| Matching.InterpolateBetween | Leo/Leo/LineChartView/LineChartView.swift:367-376 | between the neighbours in x, the interpolated y lies between their y-values |
| Resampler.SortByX | Leo/Leo/LineChartView/LineChartView.swift:281-282 | the result is sorted by x and is a permutation of the input |
| Resampler.Remaining | Leo/Leo/LineChartView/LineChartView.swift:267-273 | the list holds each point of the set that is not removed, exactly once |
| Resampler.SortThenDenormalize | Leo/Leo/LineChartView/LineChartView.swift:281-285 | sorting and then denormalising equals denormalising and then sorting |
| Resampler.UnmappedTargetCount | Leo/Leo/LineChartView/LineChartView.swift:267-273 | the list of unmapped target points enumerates the `Set` the source keeps |
| Resampler.SyntheticStartPoints | Leo/Leo/LineChartView/LineChartView.swift:275-279 | there is one synthetic point per unmapped target point, and it sits at that point's normalised x |
| Resampler.SyntheticStartPointsOnSegments | Leo/Leo/LineChartView/LineChartView.swift:275-279 | every synthetic point lies on the straight segment between two consecutive source points: on their line and within their x and y ranges |
| Resampler.BeforeDistinctEndBelowOne | Leo/Leo/LineChartView/LineChartView.swift:267-279 | when a point list ends on two distinct x values, every point but the last normalises to an x below 1, so it can be interpolated |
| Resampler.InterpolateInOnSegment | Leo/Leo/LineChartView/LineChartView.swift:275-279 | a normalised x in [0, 1] that is below 1, or whose collection ends in two distinct x, is interpolated between a pair of distinct x; denormalised, it lies on the straight segment between the two collection points that surround it (on their line and within their x and y ranges) |
| Resampler.DenormalizeOnSegment | Leo/Leo/LineChartView/LineChartView.swift:344-349 | denormalising keeps a point on the straight segment between two others |
| Resampler.TargetEndSuffices | Leo/Leo/LineChartView/LineChartView.swift:267-279 | when the target ends in two distinct x, no unmapped target point sits at normalised x 1, so growing never needs the last two source points to differ |
| Resampler.LastSourceMapsToLastTarget | Leo/Leo/LineChartView/LineChartView.swift:267-273 | the last source point, at normalised x 1, maps to the last target point because ties go right, so that point is never unmapped |
| Resampler.FlatEndDividesByZero | Leo/Leo/LineChartView/LineChartView.swift:356-376 | when the last two source points share their x, an unmapped target point at normalised x 1 gets a surrounding pair of equal x, so `interpolate` divides zero by zero |
| Resampler.AnimationStartPoints | Leo/Leo/LineChartView/LineChartView.swift:253-286 | the source is returned as it is when it is not shorter; otherwise the result is sorted by x and holds exactly the source points plus the synthetic ones, so its length is \|source\| + #unmapped |
| Resampler.DuplicatedEndPoints | Leo/Leo/LineChartView/LineChartView.swift:309-312 | there is one duplicate per unmapped source point; it is a target point, and the nearest one in normalised x |
| Resampler.EndPointsAreSortedDuplicates | Leo/Leo/LineChartView/LineChartView.swift:298-318 | sorting the normalised target points and duplicates and then denormalising them gives the target points plus their duplicates, sorted by x |
| Resampler.AnimationEndPoints | Leo/Leo/LineChartView/LineChartView.swift:288-319 | the target is returned as it is when it is not shorter; otherwise the result is sorted by x and holds exactly the target points plus the duplicates, so it holds only target points and has length \|target\| + #unmapped |
| EarlyResampler.PathFrom | Leo/Leo/Path.swift:15-24 | the path is the polyline through the first point and then every point, so it has one move and \|points\| lines |
| EarlyResampler.AnimationStartPoints | Leo/Leo/Path.swift:28-43 | the source when it is not shorter; otherwise \|target\| points, each the source point nearest in normalised x to the target point at the same index |
| EarlyResampler.AnimationFinishPoints | Leo/Leo/Path.swift:45-60 | the target when it is not shorter; otherwise \|source\| points, each the target point nearest in normalised x to the source point at the same index |
| EarlyResampler.NearestMatches | Leo/Leo/Path.swift:36-42 | the outputs are index-aligned with the input, and each is a nearest member of the other collection |
| EarlyResampler.NearestMatchesAll | Leo/Leo/Path.swift:36-42 | every match is a member of the other collection, and none of its members is nearer in normalised x |
| EarlyResampler.NearestMatch | Leo/Leo/Path.swift:76-90 | the i-th match denormalises to a member of the collection that no other member beats in normalised x |
| EarlyResampler.EqualCardinality | Leo/Leo/Path.swift:28-60 | start and finish lists both have the length of the larger input |
| ChartView.InsetBounds | Leo/Leo/LineChartView/LineChartView.swift:185-187 | each edge of the drawing rectangle lies inside the view's bounds by its own inset |
| ChartView.ScaledX | Leo/Leo/LineChartView/LineChartView.swift:150-157 | with a positive x range, the scaled value times the range is the distance from minX |
| ChartView.ScaledY | Leo/Leo/LineChartView/LineChartView.swift:161-168 | with a positive y range, the scaled value times the range is the distance from minY |
| ChartView.VisualPoint | Leo/Leo/LineChartView/LineChartView.swift:149-173 | minX maps to the rectangle's left edge and maxX to its right edge; minY maps to the bottom edge and maxY to the top; a flat x range gives the left edge and a flat y range the vertical centre |
| ChartView.VisualXOrder | Leo/Leo/LineChartView/LineChartView.swift:150-159 | placing x within a rectangle of non-negative width never reverses the order of x |
| ChartView.VisualYOrder | Leo/Leo/LineChartView/LineChartView.swift:161-170 | placing y within a rectangle of non-negative height reverses the order of y |
| ChartView.VisualFractions | Leo/Leo/LineChartView/LineChartView.swift:149-173 | a mapped point's offset from the rectangle's origin, as a fraction of its size, is the point's scaled coordinate |
| ChartView.ScaledInverse | Leo/Leo/LineChartView/LineChartView.swift:175-183 | placing fractions into a window with positive ranges and scaling back gives the same fractions |
| ChartView.VisualPointOrderX | Leo/Leo/LineChartView/LineChartView.swift:150-159 | the mapping never reverses the order of x |
| ChartView.VisualPointOrderY | Leo/Leo/LineChartView/LineChartView.swift:161-170 | the mapping reverses the order of y (y is flipped) |
| ChartView.DataPoint | Leo/Leo/LineChartView/LineChartView.swift:175-183 | the inverse of the mapping, as written: exact only when the inset rectangle's origin is (0, 0) |
| ChartView.DataPointRoundTrip | Leo/Leo/LineChartView/LineChartView.swift:149-183 | with an origin at (0, 0) and positive ranges and size, mapping and inverting gives the point back |
| ChartView.DataPointIgnoresOrigin | Leo/Leo/LineChartView/LineChartView.swift:175-187 | with any origin, the inverse is off by the origin's offset scaled into data units |
| ChartView.DataPointInsetCounterexample | Leo/Leo/LineChartView/LineChartView.swift:175-187 | with a non-zero left inset, reading back any mapped point gives a different point |
| ChartView.InsetDataPoint | Leo/Leo/LineChartView/LineChartView.swift:175-187 | the corrected inverse: mapping its result gives the visual point back, for any inset origin |
| ChartView.InsetDataPointRoundTrip | Leo/Leo/LineChartView/LineChartView.swift:149-187 | the corrected inverse undoes the mapping for any inset origin |
| ChartView.DataPointOrder | Leo/Leo/LineChartView/LineChartView.swift:175-177 | the inverse keeps the order of x, so sorting touches by visual x sorts them by data x |
| ChartView.InsetDataPointOrder | Leo/Leo/LineChartView/LineChartView.swift:175-177 | the corrected inverse keeps the order of x |
| ChartView.PathFrom | Leo/Leo/LineChartView/LineChartView.swift:117-134 | element i goes to the visual point of point i; there is one move (the first element), or no element when the list is empty |
| ChartView.CompoundPath | Leo/Leo/LineChartView/LineChartView.swift:95-115 | empty for no segments; otherwise one subpath per segment and one connective line between neighbours |
| ChartView.SegmentStartStep | Leo/Leo/LineChartView/LineChartView.swift:102-111 | a segment's offset in the compound path is the first segment's length plus one, plus its offset among the rest |
| ChartView.CompoundPathHead | Leo/Leo/LineChartView/LineChartView.swift:95-115 | the compound path starts with the first segment's own path |
| ChartView.CompoundPathStep | Leo/Leo/LineChartView/LineChartView.swift:102-111 | the compound path is the first segment's path, a line to the second segment's first visual point, then the compound path of the rest |
| ChartView.SubpathShift | Leo/Leo/LineChartView/LineChartView.swift:95-115 | if a segment's subpath sits at its offset in the path of all but the first segment, it sits at its offset in the whole path |
| ChartView.ConnectsFirst | Leo/Leo/LineChartView/LineChartView.swift:102-109 | right after the first segment's subpath comes a line to the second segment's first visual point |
| ChartView.ConnectsShift | Leo/Leo/LineChartView/LineChartView.swift:102-109 | a connective line found in the path of all but the first segment is found, shifted, in the whole path |
| ChartView.CompoundPathSubpath | Leo/Leo/LineChartView/LineChartView.swift:95-115 | the compound path holds each segment's own path at that segment's offset |
| ChartView.CompoundPathConnects | Leo/Leo/LineChartView/LineChartView.swift:102-109 | right after each segment's subpath comes a line to the next segment's first visual point |
| Selection.NearestIndex | Leo/Leo/LineChartView/LineChartView.swift:583-588 | the loop keeps the earliest index whose x is nearest to the query among the points it has seen |
| Selection.EarliestNearestUnique | Leo/Leo/LineChartView/LineChartView.swift:583-588 | the earliest nearest point is unique |
| Selection.SelectedDataPoint | Leo/Leo/LineChartView/LineChartView.swift:580-591 | the result is the earliest of the points whose x is nearest to the query's x |
| Selection.SelectedDataPointMonotone | Leo/Leo/LineChartView/LineChartView.swift:580-591 | a query further right never selects a point further left |
| Selection.LastStartAtOrBefore | Leo/Leo/LineChartView/LineChartView.swift:569-575 | the reverse scan finds nothing exactly when every segment start is right of x; otherwise it finds the last segment whose start is at or left of x |
| Selection.SegmentIndex | Leo/Leo/LineChartView/LineChartView.swift:566-578 | the largest index whose segment starts at or before x, or 0 when there is none |
| Selection.SegmentIndexMonotone | Leo/Leo/LineChartView/LineChartView.swift:566-578 | the index never decreases as x grows |
| Selection.TouchSegmentIndex | Leo/Leo/LineChartView/LineChartView.swift:566-591 | a touch resolves to a valid segment index: the segment index of the x of the earliest data point nearest to the touch's data-space x |
| Selection.TouchSegmentIndexMonotone | Leo/Leo/LineChartView/LineChartView.swift:515-522 | a touch further right never resolves to an earlier segment, so a range sorted by touch x selects a non-empty slice |
| Selection.SortTouches | Leo/Leo/LineChartView/LineChartView.swift:421 | touches come out sorted by location x and as a permutation of the set |
| Selection.TwoLeftmost | Leo/Leo/LineChartView/LineChartView.swift:421-428 | the first two sorted touches are distinct touches of the set, and no other touch lies left of either |
| Selection.SortPair | Leo/Leo/LineChartView/LineChartView.swift:431-432 | the pair holds the same two touches, ordered by location x |
| Selection.Leftmost | Leo/Leo/LineChartView/LineChartView.swift:431 | the touch is one of the set and no touch lies left of it |
| Selection.Began | Leo/Leo/LineChartView/LineChartView.swift:414-438 | no touches: nothing changes; from none, one touch selects it and more select the two leftmost; a single selection becomes an ordered range with the leftmost new touch; a range is kept |
| Selection.Moved | Leo/Leo/LineChartView/LineChartView.swift:440-457 | no selection and a single touch stay as they are; a range keeps its two touches; segments are reselected exactly when a held touch moved, and a reselected range is ordered by x |
| Selection.Finished | Leo/Leo/LineChartView/LineChartView.swift:471-495 | ending no held touch changes nothing; ending one side of a range keeps the other as a single; segments are reselected exactly when the state changes |
| Selection.FinishedReleases | Leo/Leo/LineChartView/LineChartView.swift:471-495 | ending touches releases exactly those held touches and keeps the state well formed |
| Selection.TransitionsKeepWellFormed | Leo/Leo/LineChartView/LineChartView.swift:414-438 | new touches never make a range of one touch twice |
| Selection.MovedKeepsWellFormed | Leo/Leo/LineChartView/LineChartView.swift:440-457 | moving touches never makes a range of one touch twice |
| Selection.Run | Leo/Leo/LineChartView/LineChartView.swift:522 | the closed range slice exists exactly when left ≤ right, and then holds segments left through right |
| Selection.SelectedSegments | Leo/Leo/LineChartView/LineChartView.swift:507-524 | none selects nothing, whatever the data; with no data point a touch traps at `first!`; otherwise a single touch selects its segment and a range selects the slice between its two touches' segments |
| Selection.OrderedRangeSelects | Leo/Leo/LineChartView/LineChartView.swift:515-522 | a range whose left touch is not right of its right touch selects at least one segment |
| Selection.BeganSelects | Leo/Leo/LineChartView/LineChartView.swift:414-438 | from no selection, a single touch, or a range ordered by x (the order every range the transitions build has), the state after new touches never makes the range slice trap |
| Selection.MovedSelects | Leo/Leo/LineChartView/LineChartView.swift:440-457 | the state reselected after a move never makes the range slice trap |
| Selection.SelectSegments | Leo/Leo/LineChartView/LineChartView.swift:502-532 | none deselects everything, whatever the data; it traps exactly when the selection does; an empty selection deselects; otherwise the highlight is the compound path of the selected segments, one subpath per segment, so a single selection highlights one subpath |
| Extent.Lowest | Leo/Leo/LineChartViewModel/LineChartViewModel.swift:31-37 | none for no points; otherwise a value some point has and no point is below |
| Extent.Highest | Leo/Leo/LineChartViewModel/LineChartViewModel.swift:31-38 | none for no points; otherwise a value some point has and no point is above |
| Extent.Bound | Leo/Leo/LineChartViewModel/LineChartViewModel.swift:34-38 | the explicit value if given, else the derived one, else 0 |
| Extent.DeriveWindow | Leo/Leo/LineChartViewModel/LineChartViewModel.swift:29-38 | each bound is its explicit value, or the least/greatest coordinate over all points, or 0 with no points |
| Extent.ExplicitBoundOverridesOnlyItsField | Leo/Leo/LineChartViewModel/LineChartViewModel.swift:34-38 | giving one bound explicitly changes that field only |
| Extent.DerivedWindowEnclosesPoints | Leo/Leo/LineChartViewModel/LineChartViewModel.swift:31-38 | derived bounds contain every data point |
| Extent.DerivedRangesNonNegative | Leo/Leo/LineChartViewModel/LineChartViewModel.swift:49-55 | derived bounds give non-negative x and y ranges |
| Extent.SinglePointWindow | Leo/Leo/LineChartViewModel/LineChartViewModel.swift:31-55 | one point gives a window of that point and zero ranges |
| ChartData.CheckSegments | Leo/Leo/Data/LineChartDataSet.swift:17-19 | the assertion passes exactly when every segment is non-empty |
| ChartData.Init | Leo/Leo/Data/LineChartDataSet.swift:16-23 | a data set exists exactly when every segment is non-empty, and it stores its arguments unchanged |
| ChartData.AllEmpty | Leo/Leo/Data/LineChartDataSet.swift:31 | the `reduce(true)` fold is true exactly when the seed is true and every segment is empty |
| ChartData.IsEmpty | Leo/Leo/Data/LineChartDataSet.swift:30-32 | true exactly when every segment is empty, so true for no segments |
| ChartData.IsEmptyIffNoSegments | Leo/Leo/Data/LineChartDataSet.swift:16-32 | under the non-empty-segment invariant, a data set is empty exactly when it has no segments |
| ChartData.AllDataPoints | Leo/Leo/Data/LineChartDataSet.swift:34-36 | the points of all segments, as many as their lengths add up to, and no others |
| ViewModel.ViewModel.XRange | Leo/Leo/LineChartViewModel/LineChartViewModel.swift:49-51 | the x range is the distance from the minimum x to the maximum x |
| ViewModel.ViewModel.YRange | Leo/Leo/LineChartViewModel/LineChartViewModel.swift:53-55 | the y range is the distance from the minimum y to the maximum y |
| ViewModel.ViewModel.Segments | Leo/Leo/LineChartViewModel/LineChartViewModel.swift:57-59 | the segments are the styled data set's own segments |
| ViewModel.ViewModel.AllDataPoints | Leo/Leo/LineChartViewModel/LineChartViewModel.swift:61-63 | the data set's `allDataPoints`: exactly the points of some segment |
| ViewModel.Init | Leo/Leo/LineChartViewModel/LineChartViewModel.swift:22-42 | the styled data set and reference line are stored, and the bounds follow the default-bounds rule over all data points |
| ViewModel.DerivedBoundsEncloseData | Leo/Leo/LineChartViewModel/LineChartViewModel.swift:29-55 | without explicit bounds, every data point lies inside the window and both ranges are non-negative |
| ViewModel.SinglePointZeroRanges | Leo/Leo/LineChartViewModel/LineChartViewModel.swift:29-55 | one data point gives zero x and y ranges |
| ViewModel.NoDataZeroWindow | Leo/Leo/LineChartViewModel/LineChartViewModel.swift:34-38 | no data and no explicit bounds give the all-zero window |
| LegacyViewModel.ViewModel.XRange | Leo/Leo/ViewModel/LineChartViewModel.swift:49-51 | the x range is the distance from the minimum x to the maximum x |
| LegacyViewModel.ViewModel.YRange | Leo/Leo/ViewModel/LineChartViewModel.swift:53-55 | the y range is the distance from the minimum y to the maximum y |
| LegacyViewModel.Init | Leo/Leo/ViewModel/LineChartViewModel.swift:22-42 | the data set and reference line are stored, and the bounds follow the default-bounds rule over the flattened points |
| LegacyViewModel.DerivedBoundsEncloseData | Leo/Leo/ViewModel/LineChartViewModel.swift:29-55 | without explicit bounds, every data point lies inside the window and both ranges are non-negative |
| LegacyViewModel.SinglePointZeroRanges | Leo/Leo/ViewModel/LineChartViewModel.swift:29-55 | one data point gives zero x and y ranges |
| LegacyChartView.VisualPoint | Leo/Leo/LineChartView.swift:127-151 | x scales linearly into the width and y into the height with y flipped; a flat x range gives x = 0 and a flat y range gives y = height / 2 |
| LegacyChartView.DataPoint | Leo/Leo/LineChartView.swift:153-161 | with positive ranges, mapping the result gives the visual point back |
| LegacyChartView.DataPointRoundTrip | Leo/Leo/LineChartView.swift:127-161 | with positive ranges and size, inverting the mapping gives the point back |
| LegacyChartView.PathFrom | Leo/Leo/LineChartView.swift:108-125 | element i goes to the visual point of point i, only the first is a move, and an empty list gives an empty path |
| LegacyChartView.AnimationStartPoints | Leo/Leo/LineChartView.swift:231-267 | the source when it is not shorter; otherwise sorted by x and keeping every source point |
| LegacyChartView.AnimationEndPoints | Leo/Leo/LineChartView.swift:269-303 | the target when it is not shorter; otherwise sorted by x and made of exactly the target's points |
| LegacyChartView.AnimationDurationPercentage | Leo/Leo/LineChartView.swift:390-392 | the minimum duration gives 0, the maximum gives 1, and durations in between give a value in [0, 1] |
| LegacyChartView.AnimationDuration | Leo/Leo/LineChartView.swift:394-396 | 0 gives the minimum duration, 1 the maximum, and values in [0, 1] a duration between them |
| LegacyChartView.AnimationDurationRoundTrip | Leo/Leo/LineChartView.swift:386-396 | the two conversions are inverse, so the current duration survives the round trip |
| LegacyChartView.DataPoints | Leo/Leo/LineChartView.swift:314-316 | the in-flight visual points, each mapped back into data space |
| LegacyChartView.AnimationSource | Leo/Leo/LineChartView.swift:202-203 | when an animation runs, its visual points each read back with `dataPoint` in the old window (as at 305-318), else the old model's flattened points |
| LegacyChartView.Animate | Leo/Leo/LineChartView.swift:168-196 | the animation runs for the current duration from the start points mapped with the old window to the end points mapped with the new one |
| LegacyChartView.Configure | Leo/Leo/LineChartView.swift:87-101 | a data set without segments traps at `first!`; otherwise the new model becomes current, the first configuration draws only the first segment's points without animating, and later ones draw all flattened points and add exactly `Animate` from the animation source (the running animation's points or the old model's) to the new flattened points, between the old and new windows |
| ChartViewAnimation.AnimationSource | Leo/Leo/LineChartView/LineChartView.swift:321-335 | the running animation's points read back into data space when there is one, else the old model's points |
| ChartViewAnimation.InFlightRoundTrip | Leo/Leo/LineChartView/LineChartView.swift:321-335 | in a rectangle at (0, 0), reading back the visual points of a point list gives the list, so an interrupted animation resumes where it was |
| ChartViewAnimation.StartPath | Leo/Leo/LineChartView/LineChartView.swift:224-236 | the start path is a single polyline (at most one move) |
| ChartViewAnimation.EndPath | Leo/Leo/LineChartView/LineChartView.swift:238-251 | the end path is a single polyline (at most one move) |
| ChartViewAnimation.Animate | Leo/Leo/LineChartView/LineChartView.swift:193-221 | the animation runs over the current animation duration, 0.3 seconds |
| ChartViewAnimation.AnimateResamples | Leo/Leo/LineChartView/LineChartView.swift:193-251 | the animation goes from one polyline through the resampled start points, drawn in the old window, to one polyline through the resampled end points, drawn in the new window |
| ChartViewAnimation.Configure | Leo/Leo/LineChartView/LineChartView.swift:59-76 | the selection is reset; no view model clears the path and the current model; otherwise the path is the compound path of every segment, one subpath each, and it animates exactly when there was a current model, by `Animate` from the running animation's points (or the old model's) to the new model's points |
| Sparkline.SizeWithInsets | Leo/Leo/SparklineRenderer.swift:20-24 | the drawing size is the given size less 2 points on each side |
| Sparkline.VisualPoint | Leo/Leo/SparklineRenderer.swift:104-128 | the same mapping as the earlier chart view's: a flat x range gives x = 0 and a flat y range gives y = height / 2 |
| Sparkline.ReferenceLineY | Leo/Leo/SparklineRenderer.swift:45-46 | the line's y scaled and flipped into the height; it agrees with the point mapping whenever the y range is positive |
| Sparkline.DrawReferenceLine | Leo/Leo/SparklineRenderer.swift:41-51 | a move to x = 0 and a line to the full width, both at the line's y, then one stroke |
| Sparkline.DrawReferenceLines | Leo/Leo/SparklineRenderer.swift:35-39 | three commands and one stroke per reference line |
| Sparkline.ReferenceLinesLayout | Leo/Leo/SparklineRenderer.swift:35-51 | reference line k is drawn by commands 3k to 3k + 2, in order |
| Sparkline.PathOfAppend | Leo/Leo/SparklineRenderer.swift:64-75 | the traced path of joined command lists is the join of their paths |
| Sparkline.PathOfAsCommands | Leo/Leo/SparklineRenderer.swift:85-89 | issuing a path as moves and lines traces exactly that path, with no stroke |
| Sparkline.DrawSegment | Leo/Leo/SparklineRenderer.swift:77-92 | the commands trace the segment's polyline of visual points and end with the one stroke |
| Sparkline.ConnectTo | Leo/Leo/SparklineRenderer.swift:71-73 | nothing when the next entry is missing or empty; otherwise one line to its first visual point |
| Sparkline.NonEmpty | Leo/Leo/SparklineRenderer.swift:68 | only non-empty segments are kept, and a list of non-empty segments is kept whole |
| Sparkline.DrawSegments | Leo/Leo/SparklineRenderer.swift:64-75 | one stroke per non-empty segment; nothing for no segments |
| Sparkline.DrawFromTracesCompoundPath | Leo/Leo/SparklineRenderer.swift:68-102 | over non-empty segments, the trace from segment i on is the compound path of those segments |
| Sparkline.DrawSegmentsTracesCompoundPath | Leo/Leo/SparklineRenderer.swift:64-75 | over non-empty segments, the sparkline traces the same compound path as the multi-segment chart view |
| Sparkline.ConnectiveUsesUnfilteredIndex | Leo/Leo/SparklineRenderer.swift:68-73 | with an empty segment between two others, the first is not connected and the last connects back to its own first point |
| Sparkline.DrawDataSets | Leo/Leo/SparklineRenderer.swift:58-62 | the model's data sets are drawn whatever the argument: one stroke per non-empty segment |
| Sparkline.Draw | Leo/Leo/SparklineRenderer.swift:20-28 | the reference lines come first, within the inset size, and then the data sets; one stroke per line and per non-empty segment |

## Left out

- UIKit and Core Animation plumbing is not modelled: layers, styling and colours, alpha animations, `animationDidStop`, timing functions and `CustomAnimations.swift`. The chart's state is passed in and returned instead.
- `CGFloat`, `TimeInterval` and `Float` are all `real`. Round trips hold over the reals only, and the `Float` conversion in the duration constants is not modelled.
- Divisions by zero are preconditions, where the source would produce infinities or NaN. This covers normalising a collection whose first and last x are equal, `interpolate` with equal x, the inverse mappings with a zero-sized view, and a sparkline reference line with a zero y range.
- Resampler.AnimationStartPoints: the start and end lists of the two newer resamplers do not always have equal lengths, so no such property is stated. For example, normalised source x {0, 0.1, 1} against target x {0, 0.5, 0.6, 1} gives 5 start points against 4 end points. Only `Path.swift` gives equal lengths (`EarlyResampler.EqualCardinality`).
- Resampler.AnimationStartPoints: the result's order is stated as "sorted by x with this multiset". Swift's `Set` iteration order is unspecified and its sort is not stable, so no fixed sequence is promised.
- Resampler.AnimationStartPoints and Resampler.AnimationEndPoints: the inputs must be sorted by x with distinct first and last x, and with at least two points. With fewer points `points(surrounding:)` reads index -1 or -2 and traps. Growing also excludes one case where Swift computes NaN: the last two source points share their x and an unmapped target point sits at normalised x 1, so it is interpolated between them (`Resampler.FlatEndDividesByZero`). Every other unmapped target point gets a pair of distinct x, and a target that ends in two distinct x never has that case (`Resampler.TargetEndSuffices`).
- Matching.SurroundingIndex: a query left of the collection's first point makes the source read index -1 and trap. It is a precondition here.
- `existingAnimationPoints` reads the presentation layer's in-flight path. That read is the `inFlight` input of `LegacyChartView.AnimationSource` and `ChartViewAnimation.AnimationSource`; only the read-back with `dataPoint` is modelled.
- ChartViewAnimation.Configure: layers, styles and the alpha animation of `resetSelection` are not modelled; the result records which path the layer shows, the animation added, the stored model and whether the chart faded back in.
- LegacyChartView.AnimationStartPoints and LegacyChartView.AnimationEndPoints state less than the `Resampler` members they delegate to. The two files' resamplers are the same text; the full contracts are on `Resampler.AnimationStartPoints` and `Resampler.AnimationEndPoints`.
- LegacyChartView.Configure: when the first segment is empty, the first path is empty, so it states at most one move. A data set with no segments traps at `segments.first!`, which the model returns as `None`.
- The newest file's `Constants` differ from the earlier file's only in the current duration (0.3 instead of 3). Its duration conversions are the earlier file's and are modelled once, in `LegacyChartView`.
- The earlier view's `handlePan`, `touchesBegan` and `touchesEnded` only recolour the layer.
- ChartView.CompoundPath: it requires non-empty segments, which is the data set's invariant. The Swift function would skip an empty segment's subpath and its connective line.
- Selection.SelectSegments: the `currentViewModel` nil guard is not modelled; the segments are passed in. A touch on a data set with no points traps at `allDataPoints.first!`, and a range whose segment indices come out reversed makes the source's closed range trap. The model returns `None` for both. `Selection.BeganSelects` and `Selection.MovedSelects` show that the transitions never produce such a range: `Began` builds ranges ordered by x and keeps an existing one, and `Moved` re-sorts a range whenever one of its touches moves.
- ChartData.Init: the `assert` is debug-only in Swift. The model returns `None` when it would fail, and so treats every data set as satisfying it.
- `Leo/Leo/DataSet/LineChartDataSet.swift` has the same `isEmpty` expression as the `Data` version, and `ChartData.IsEmpty` covers both.
- Plain records (`LineChartDataPoint`, segments, reference lines, `LineStyle` and the `Styled*` wrappers) are datatypes with no behaviour. Styles are stored, never interpreted.
- Sparkline: the view model the renderer reads, with `dataSets` and `referenceLines`, is not part of this model. Its window, data sets and reference lines are the fields of `SparklineModel`. Colour, width, cap and join settings are not commands in the trace.
- Sparkline.DrawSegments: the connective line comes after the segment's stroke. What Core Graphics draws for a line added after the current path was stroked is outside this model; only the command order is stated.
- The application target (`ViewController.swift`, `Style.swift`, `LineChartDataSetProvider.swift` with its random data) is not part of this model.

## Findings

| source | as written | input that shows it | evidently intended | confidence | as-written member | corrected member |
|---|---|---|---|---|---|---|
| Leo/Leo/LineChartView/LineChartView.swift:175-183 | `dataPoint` divides the visual x by the inset width and measures y from the inset height, without subtracting `insetBounds.minX`/`minY` | window x 0..1 and y 0..1, insets giving an inset rectangle at x = 10 with width 100: the point at x = 0 maps to visual x 10, and that maps back to x 0.1 | the inverse of `visualPoint`, which adds the inset origin | not executed | ChartView.DataPointInsetCounterexample | ChartView.InsetDataPointRoundTrip |

=== FILE: chart_data.dfy ===
/**
 * The data set of the multi-segment chart: segments of data points and an
 * optional reference line. Its initializer asserts that no segment is
 * empty.
 */
module ChartData {
  import opened Optional
  import opened Geometry
  import ChartView

  /** The reference line of a data set, by its y value only. */
  datatype DataReferenceLine = DataReferenceLine(y: real)

  datatype DataSet = DataSet(segments: seq<Segment>, referenceLine: Option<DataReferenceLine>)

  /** The `for segment in segments { assert(!segment.isEmpty) }` loop: true when every check passes. */
  function CheckSegments(segments: seq<Segment>): (ok: bool)
    ensures ok <==> ChartView.NonEmptySegments(segments)
  {
    if segments == [] then true
    else |segments[0]| > 0 && CheckSegments(segments[1..])
  }

  /**
   * `init(segments:referenceLine:)`: the fields are stored as given. A
   * failed assertion (an empty segment, in a debug build) is `None`.
   */
  function Init(segments: seq<Segment>, referenceLine: Option<DataReferenceLine>): (r: Option<DataSet>)
    ensures r.Some? <==> ChartView.NonEmptySegments(segments)
    ensures r.Some? ==> r.value.segments == segments && r.value.referenceLine == referenceLine
  {
    if CheckSegments(segments) then Some(DataSet(segments, referenceLine)) else None
  }

  /** `segments.reduce(acc) { $0 && $1.isEmpty }` */
  function AllEmpty(acc: bool, segments: seq<Segment>): (r: bool)
    ensures r <==> acc && forall i :: 0 <= i < |segments| ==> |segments[i]| == 0
  {
    if segments == [] then acc
    else AllEmpty(acc && |segments[0]| == 0, segments[1..])
  }

  /** `isEmpty`: every segment is empty, which holds of no segments at all. */
  function IsEmpty(ds: DataSet): (r: bool)
    ensures r <==> forall i :: 0 <= i < |ds.segments| ==> |ds.segments[i]| == 0
    ensures ds.segments == [] ==> r
  {
    AllEmpty(true, ds.segments)
  }

  /** Under the initializer's assertion a data set is empty exactly when it has no segments. */
  lemma IsEmptyIffNoSegments(segments: seq<Segment>, referenceLine: Option<DataReferenceLine>)
    requires Init(segments, referenceLine).Some?
    ensures IsEmpty(Init(segments, referenceLine).value) <==> segments == []
  {
    if segments != [] {
      assert |segments[0]| > 0;
    }
  }

  /** `allDataPoints`: the segments' points in order, as many as they hold together. */
  function AllDataPoints(ds: DataSet): (r: seq<Point>)
    ensures |r| == TotalLength(ds.segments)
    ensures forall p :: p in r <==> exists i :: 0 <= i < |ds.segments| && p in ds.segments[i]
  {
    forall p ensures p in Flatten(ds.segments) <==> exists i :: 0 <= i < |ds.segments| && p in ds.segments[i] {
      FlattenMembership(ds.segments, p);
    }
    Flatten(ds.segments)
  }
}

=== FILE: chart_view.dfy ===
/**
 * Coordinate mapping and path building of the multi-segment chart view:
 * data points are mapped into the view's inset rectangle (y grows
 * downward there), and segments become one compound path whose segments
 * are stitched by connective lines.
 */
module ChartView {
  import opened Geometry
  import opened Reals

  /** `UIEdgeInsets` */
  datatype EdgeInsets = EdgeInsets(top: real, left: real, bottom: real, right: real)

  /**
   * `UIEdgeInsetsInsetRect(bounds, insets)`: the rectangle the chart draws
   * into, each edge moved inwards by its inset.
   */
  function InsetBounds(bounds: Rect, insets: EdgeInsets): (r: Rect)
    ensures r.minX - bounds.minX == insets.left && r.minY - bounds.minY == insets.top
    ensures (bounds.minX + bounds.width) - (r.minX + r.width) == insets.right
    ensures (bounds.minY + bounds.height) - (r.minY + r.height) == insets.bottom
  {
    Rect(bounds.minX + insets.left, bounds.minY + insets.top,
         bounds.width - insets.left - insets.right, bounds.height - insets.top - insets.bottom)
  }

  /** The `scaledX` closure of `visualPoint`: the x position as a fraction of the window, 0 without x extent. */
  function ScaledX(p: Point, w: Window): (s: real)
    ensures w.XRange() > 0.0 ==> s * w.XRange() == p.x - w.minX
  {
    if w.XRange() > 0.0 then (p.x - w.minX) / w.XRange() else 0.0
  }

  /** The `scaledY` closure of `visualPoint`: the y position as a fraction of the window, one half without y extent. */
  function ScaledY(p: Point, w: Window): (s: real)
    ensures w.YRange() > 0.0 ==> s * w.YRange() == p.y - w.minY
  {
    if w.YRange() > 0.0 then (p.y - w.minY) / w.YRange() else 0.5
  }

  /** `adjustedX`: the scaled x placed within the rectangle's width. */
  function VisualX(p: Point, w: Window, rect: Rect): real {
    rect.minX + ScaledX(p, w) * rect.width
  }

  /** `adjustedY`: the scaled y placed within the rectangle's height, measured from its bottom edge. */
  function VisualY(p: Point, w: Window, rect: Rect): real {
    rect.minY + (rect.height - ScaledY(p, w) * rect.height)
  }

  /**
   * `visualPoint(from:with:)`: x scales from [minX, maxX] onto the
   * rectangle's width, y from [minY, maxY] onto its height, flipped. A
   * window without x extent puts every point on the leading edge; one
   * without y extent puts it at mid-height.
   */
  function VisualPoint(p: Point, w: Window, rect: Rect): (v: Point)
    ensures w.XRange() <= 0.0 ==> v.x == rect.minX
    ensures w.YRange() <= 0.0 ==> v.y == rect.minY + rect.height / 2.0
    ensures w.XRange() > 0.0 && p.x == w.minX ==> v.x == rect.minX
    ensures w.XRange() > 0.0 && p.x == w.maxX ==> v.x == rect.minX + rect.width
    ensures w.YRange() > 0.0 && p.y == w.minY ==> v.y == rect.minY + rect.height
    ensures w.YRange() > 0.0 && p.y == w.maxY ==> v.y == rect.minY
  {
    assert w.XRange() > 0.0 && p.x == w.maxX ==> ScaledX(p, w) == 1.0;
    assert w.YRange() > 0.0 && p.y == w.maxY ==> ScaledY(p, w) == 1.0;
    Point(VisualX(p, w, rect), VisualY(p, w, rect))
  }

  lemma VisualXOrder(p: Point, q: Point, w: Window, rect: Rect)
    requires rect.width >= 0.0 && p.x <= q.x
    ensures VisualX(p, w, rect) <= VisualX(q, w, rect)
  {
    if w.XRange() > 0.0 {
      ScaleMonotone(p.x - w.minX, q.x - w.minX, w.XRange());
    }
    PlaceMonotone(ScaledX(p, w), ScaledX(q, w), rect.minX, rect.width);
  }

  lemma VisualYOrder(p: Point, q: Point, w: Window, rect: Rect)
    requires rect.height >= 0.0 && p.y <= q.y
    ensures VisualY(p, w, rect) >= VisualY(q, w, rect)
  {
    if w.YRange() > 0.0 {
      ScaleMonotone(p.y - w.minY, q.y - w.minY, w.YRange());
    }
    FlipMonotone(ScaledY(p, w), ScaledY(q, w), rect.minY, rect.height);
  }

  /** The mapping keeps the order of x. */
  lemma VisualPointOrderX(p: Point, q: Point, w: Window, rect: Rect)
    requires rect.width >= 0.0 && p.x <= q.x
    ensures VisualPoint(p, w, rect).x <= VisualPoint(q, w, rect).x
  {
    VisualXOrder(p, q, w, rect);
  }

  /** The mapping reverses the order of y: higher data lies higher up, at smaller visual y. */
  lemma VisualPointOrderY(p: Point, q: Point, w: Window, rect: Rect)
    requires rect.height >= 0.0 && p.y <= q.y
    ensures VisualPoint(p, w, rect).y >= VisualPoint(q, w, rect).y
  {
    VisualYOrder(p, q, w, rect);
  }

  /**
   * `dataPoint(from:with:)`, the inverse mapping used for touches and for
   * reading back an in-flight animation. It divides by the rectangle's
   * width and height, and it does not subtract the rectangle's origin, so
   * it inverts `VisualPoint` only for a rectangle at (0, 0).
   */
  function DataPoint(v: Point, w: Window, rect: Rect): (p: Point)
    requires rect.width != 0.0 && rect.height != 0.0
    ensures rect.minX == 0.0 && rect.minY == 0.0 && w.XRange() > 0.0 && w.YRange() > 0.0 ==>
      VisualPoint(p, w, rect) == v
  {
    var xPercentage := v.x / rect.width;
    var yPercentage := (rect.height - v.y) / rect.height;
    var p := Point(w.minX + xPercentage * w.XRange(), w.minY + yPercentage * w.YRange());
    if rect.minX == 0.0 && rect.minY == 0.0 && w.XRange() > 0.0 && w.YRange() > 0.0 then
      ScaledInverse(xPercentage, yPercentage, w);
      DivMul(v.x, rect.width);
      DivMul(rect.height - v.y, rect.height);
      p
    else p
  }

  /** Placing fractions into a window and scaling back gives the fractions again. */
  lemma ScaledInverse(fx: real, fy: real, w: Window)
    requires w.XRange() > 0.0 && w.YRange() > 0.0
    ensures var p := Point(w.minX + fx * w.XRange(), w.minY + fy * w.YRange());
      ScaledX(p, w) == fx && ScaledY(p, w) == fy
  {
    var p := Point(w.minX + fx * w.XRange(), w.minY + fy * w.YRange());
    assert p.x - w.minX == fx * w.XRange();
    assert p.y - w.minY == fy * w.YRange();
    MulDiv(fx, w.XRange());
    MulDiv(fy, w.YRange());
  }

  /** The mapped point's offsets from the rectangle's origin, as fractions of its size, are the scaled coordinates. */
  lemma VisualFractions(p: Point, w: Window, rect: Rect)
    requires rect.width != 0.0 && rect.height != 0.0
    ensures var v := VisualPoint(p, w, rect);
      && (v.x - rect.minX) / rect.width == ScaledX(p, w)
      && (rect.minY + rect.height - v.y) / rect.height == ScaledY(p, w)
  {
    var v := VisualPoint(p, w, rect);
    assert v.x - rect.minX == ScaledX(p, w) * rect.width;
    assert rect.minY + rect.height - v.y == ScaledY(p, w) * rect.height;
    MulDiv(ScaledX(p, w), rect.width);
    MulDiv(ScaledY(p, w), rect.height);
  }

  /** For a rectangle at (0, 0) and windows with extent, `DataPoint` undoes `VisualPoint`. */
  lemma DataPointRoundTrip(p: Point, w: Window, rect: Rect)
    requires rect.minX == 0.0 && rect.minY == 0.0 && rect.width > 0.0 && rect.height > 0.0
    requires w.XRange() > 0.0 && w.YRange() > 0.0
    ensures DataPoint(VisualPoint(p, w, rect), w, rect) == p
  {
    var v := VisualPoint(p, w, rect);
    VisualFractions(p, w, rect);
    assert v.x / rect.width == ScaledX(p, w);
    assert (rect.height - v.y) / rect.height == ScaledY(p, w);
  }

  /**
   * With the rectangle's origin anywhere else, reading back a mapped point
   * is off by the origin, scaled into data units.
   */
  lemma DataPointIgnoresOrigin(p: Point, w: Window, rect: Rect)
    requires rect.width > 0.0 && rect.height > 0.0 && w.XRange() > 0.0 && w.YRange() > 0.0
    ensures DataPoint(VisualPoint(p, w, rect), w, rect).x == p.x + rect.minX / rect.width * w.XRange()
    ensures DataPoint(VisualPoint(p, w, rect), w, rect).y == p.y - rect.minY / rect.height * w.YRange()
  {
    var sx, sy := ScaledX(p, w), ScaledY(p, w);
    var v := VisualPoint(p, w, rect);
    var ox, oy := rect.minX / rect.width, rect.minY / rect.height;
    VisualFractions(p, w, rect);
    DivAdd(v.x - rect.minX, rect.minX, rect.width);
    DivAdd(rect.minY + rect.height - v.y, -rect.minY, rect.height);
    assert v.x / rect.width == sx + ox;
    assert (rect.height - v.y) / rect.height == sy + -rect.minY / rect.height;
    assert -rect.minY / rect.height == -oy;
    assert (sx + ox) * w.XRange() == sx * w.XRange() + ox * w.XRange();
    assert (sy - oy) * w.YRange() == sy * w.YRange() - oy * w.YRange();
  }

  /**
   * The discrepancy is real for every rectangle with a leading inset: a
   * non-zero origin x moves every read-back point off the point it came
   * from (a 10-point inset of a 100-point-wide rectangle, over a window one
   * unit wide, moves it right by 0.1).
   */
  lemma DataPointInsetCounterexample(p: Point, w: Window, rect: Rect)
    requires rect.width > 0.0 && rect.height > 0.0 && w.XRange() > 0.0 && w.YRange() > 0.0
    requires rect.minX != 0.0
    ensures DataPoint(VisualPoint(p, w, rect), w, rect) != p
  {
    DataPointIgnoresOrigin(p, w, rect);
    var offset := rect.minX / rect.width;
    DivMul(rect.minX, rect.width);
    assert offset != 0.0;
    assert offset * w.XRange() != 0.0;
  }

  /** The inverse mapping with the rectangle's origin subtracted first. */
  function InsetDataPoint(v: Point, w: Window, rect: Rect): (p: Point)
    requires rect.width != 0.0 && rect.height != 0.0
    ensures w.XRange() > 0.0 && w.YRange() > 0.0 ==> VisualPoint(p, w, rect) == v
  {
    var xPercentage := (v.x - rect.minX) / rect.width;
    var yPercentage := (rect.minY + rect.height - v.y) / rect.height;
    var p := Point(w.minX + xPercentage * w.XRange(), w.minY + yPercentage * w.YRange());
    if w.XRange() > 0.0 && w.YRange() > 0.0 then
      ScaledInverse(xPercentage, yPercentage, w);
      DivMul(v.x - rect.minX, rect.width);
      DivMul(rect.minY + rect.height - v.y, rect.height);
      p
    else p
  }

  /** The corrected inverse undoes `VisualPoint` for a rectangle anywhere. */
  lemma InsetDataPointRoundTrip(p: Point, w: Window, rect: Rect)
    requires rect.width > 0.0 && rect.height > 0.0 && w.XRange() > 0.0 && w.YRange() > 0.0
    ensures InsetDataPoint(VisualPoint(p, w, rect), w, rect) == p
  {
    VisualFractions(p, w, rect);
  }

  /** The inverse mapping keeps the order of visual x when the rectangle is wide and the window has no negative extent. */
  lemma DataPointOrder(u: Point, v: Point, w: Window, rect: Rect)
    requires rect.width > 0.0 && rect.height > 0.0 && w.XRange() >= 0.0 && u.x <= v.x
    ensures DataPoint(u, w, rect).x <= DataPoint(v, w, rect).x
  {
    var a, b := u.x / rect.width, v.x / rect.width;
    ScaleMonotone(u.x, v.x, rect.width);
    PlaceMonotone(a, b, w.minX, w.XRange());
    assert DataPoint(u, w, rect).x == w.minX + a * w.XRange();
    assert DataPoint(v, w, rect).x == w.minX + b * w.XRange();
  }

  /** So does the corrected inverse. */
  lemma InsetDataPointOrder(u: Point, v: Point, w: Window, rect: Rect)
    requires rect.width > 0.0 && rect.height > 0.0 && w.XRange() >= 0.0 && u.x <= v.x
    ensures InsetDataPoint(u, w, rect).x <= InsetDataPoint(v, w, rect).x
  {
    var a, b := (u.x - rect.minX) / rect.width, (v.x - rect.minX) / rect.width;
    ScaleMonotone(u.x - rect.minX, v.x - rect.minX, rect.width);
    PlaceMonotone(a, b, w.minX, w.XRange());
    assert InsetDataPoint(u, w, rect).x == w.minX + a * w.XRange();
    assert InsetDataPoint(v, w, rect).x == w.minX + b * w.XRange();
  }

  function VisualPoints(points: seq<Point>, w: Window, rect: Rect): (r: seq<Point>)
    ensures |r| == |points|
  {
    seq(|points|, i requires 0 <= i < |points| => VisualPoint(points[i], w, rect))
  }

  /**
   * `path(from:with:)`: one element per point, at its visual position; the
   * first is a move and the rest are lines. No points give an empty path.
   */
  function PathFrom(points: seq<Point>, w: Window, rect: Rect): (r: seq<PathElement>)
    ensures |r| == |points|
    ensures forall i :: 0 <= i < |r| ==> r[i].to == VisualPoint(points[i], w, rect) && (r[i].MoveTo? <==> i == 0)
    ensures Moves(r) == (if points == [] then 0 else 1)
    ensures AllPoints(r) == VisualPoints(points, w, rect)
  {
    var vs := VisualPoints(points, w, rect);
    PolylineRoundTrip(vs);
    Polyline(vs)
  }

  ghost predicate NonEmptySegments(segments: seq<Segment>) {
    forall i :: 0 <= i < |segments| ==> |segments[i]| > 0
  }

  /** The line appended after a segment: to the visual first point of the next segment, if there is one. */
  function Connective(segments: seq<Segment>, w: Window, rect: Rect): seq<PathElement>
    requires NonEmptySegments(segments)
  {
    if |segments| >= 2 then [LineTo(VisualPoint(segments[1][0], w, rect))] else []
  }

  /**
   * `compoundPath(from:with:)`: each segment's path followed by a connective
   * line to the first point of the next segment (none after the last).
   * Segments are non-empty, as the data set requires.
   */
  function CompoundPath(segments: seq<Segment>, w: Window, rect: Rect): (r: seq<PathElement>)
    requires NonEmptySegments(segments)
    ensures segments == [] ==> r == []
    ensures segments != [] ==> |r| == TotalLength(segments) + |segments| - 1
    ensures Moves(r) == |segments|
  {
    if segments == [] then []
    else
      var head := PathFrom(segments[0], w, rect);
      var tail := CompoundPath(segments[1..], w, rect);
      MovesAppend(head, Connective(segments, w, rect));
      MovesAppend(head + Connective(segments, w, rect), tail);
      head + Connective(segments, w, rect) + tail
  }

  /** Where segment `i`'s subpath starts in the compound path: the points of earlier segments plus one connective line each. */
  function SegmentStart(segments: seq<Segment>, i: nat): nat
    requires i <= |segments|
  {
    TotalLength(segments[..i]) + i
  }

  /** Past the first segment, segment starts shift by the first segment's points and its connective line. */
  lemma SegmentStartStep(segments: seq<Segment>, i: nat)
    requires 0 < i < |segments|
    ensures SegmentStart(segments, i) == |segments[0]| + 1 + SegmentStart(segments[1..], i - 1)
  {
    assert segments[..i][1..] == segments[1..][..i - 1];
  }

  /** Splitting a compound path after its first segment's subpath and connective line. */
  lemma CompoundPathStep(segments: seq<Segment>, w: Window, rect: Rect)
    requires NonEmptySegments(segments) && |segments| >= 2
    ensures CompoundPath(segments, w, rect)
      == (PathFrom(segments[0], w, rect) + [LineTo(VisualPoint(segments[1][0], w, rect))]) + CompoundPath(segments[1..], w, rect)
  {
  }

  /** A compound path starts with its first segment's subpath. */
  lemma CompoundPathHead(segments: seq<Segment>, w: Window, rect: Rect)
    requires NonEmptySegments(segments) && |segments| >= 1
    ensures |segments[0]| <= |CompoundPath(segments, w, rect)|
    ensures CompoundPath(segments, w, rect)[..|segments[0]|] == PathFrom(segments[0], w, rect)
  {
    var head := PathFrom(segments[0], w, rect);
    var rest := Connective(segments, w, rect) + CompoundPath(segments[1..], w, rect);
    assert CompoundPath(segments, w, rect) == head + rest;
    PrefixOfJoin(head, rest);
  }

  lemma PrefixOfJoin<T>(a: seq<T>, b: seq<T>)
    ensures (a + b)[..|a|] == a
  {
  }

  lemma SliceOfJoin<T>(a: seq<T>, b: seq<T>, r: seq<T>, k: nat, lo: nat, n: nat, part: seq<T>)
    requires r == a + b && k == |a| + lo
    requires lo + n <= |b| && b[lo .. lo + n] == part
    ensures k + n <= |r| && r[k .. k + n] == part
  {
    assert r[k .. k + n] == b[lo .. lo + n];
  }

  lemma IndexOfJoin<T>(a: seq<T>, b: seq<T>, k: nat)
    requires k < |b|
    ensures (a + b)[|a| + k] == b[k]
  {
  }

  /** The subpath at `SegmentStart(i)` is segment `i`'s path. */
  ghost predicate SubpathAt(segments: seq<Segment>, w: Window, rect: Rect, i: nat)
    requires NonEmptySegments(segments) && i < |segments|
  {
    var r, k := CompoundPath(segments, w, rect), SegmentStart(segments, i);
    k + |segments[i]| <= |r| && r[k .. k + |segments[i]|] == PathFrom(segments[i], w, rect)
  }

  /** Segment `i + 1`'s subpath in the whole path is segment `i`'s subpath in the path of all but the first segment. */
  lemma SubpathShift(segments: seq<Segment>, w: Window, rect: Rect, i: nat)
    requires NonEmptySegments(segments) && 0 < i < |segments|
    requires SubpathAt(segments[1..], w, rect, i - 1)
    ensures SubpathAt(segments, w, rect, i)
  {
    var rest := segments[1..];
    var prefix := PathFrom(segments[0], w, rect) + [LineTo(VisualPoint(segments[1][0], w, rect))];
    var tail := CompoundPath(rest, w, rect);
    SegmentStartStep(segments, i);
    CompoundPathStep(segments, w, rect);
    var s' := SegmentStart(rest, i - 1);
    assert rest[i - 1] == segments[i];
    SliceOfJoin(prefix, tail, CompoundPath(segments, w, rect), SegmentStart(segments, i), s', |segments[i]|, PathFrom(segments[i], w, rect));
  }

  /** Segment `i`'s subpath sits at `SegmentStart(i)` in the compound path. */
  lemma {:induction false} CompoundPathSubpath(segments: seq<Segment>, w: Window, rect: Rect, i: nat)
    requires NonEmptySegments(segments) && i < |segments|
    ensures SegmentStart(segments, i) + |segments[i]| <= |CompoundPath(segments, w, rect)|
    ensures CompoundPath(segments, w, rect)[SegmentStart(segments, i) .. SegmentStart(segments, i) + |segments[i]|]
      == PathFrom(segments[i], w, rect)
  {
    if i == 0 {
      assert segments[..0] == [];
      CompoundPathHead(segments, w, rect);
      var r := CompoundPath(segments, w, rect);
      assert r[0 .. |segments[0]|] == r[..|segments[0]|];
    } else {
      CompoundPathSubpath(segments[1..], w, rect, i - 1);
      SubpathShift(segments, w, rect, i);
    }
  }

  /** After segment `i`'s subpath comes a line to segment `i + 1`'s first visual point. */
  ghost predicate ConnectsAt(segments: seq<Segment>, w: Window, rect: Rect, i: nat)
    requires NonEmptySegments(segments) && i + 1 < |segments|
  {
    var r, k := CompoundPath(segments, w, rect), SegmentStart(segments, i) + |segments[i]|;
    k < |r| && r[k] == LineTo(VisualPoint(segments[i + 1][0], w, rect))
  }

  lemma ConnectsFirst(segments: seq<Segment>, w: Window, rect: Rect)
    requires NonEmptySegments(segments) && 1 < |segments|
    ensures ConnectsAt(segments, w, rect, 0)
  {
    var prefix := PathFrom(segments[0], w, rect) + [LineTo(VisualPoint(segments[1][0], w, rect))];
    CompoundPathStep(segments, w, rect);
    assert segments[..0] == [];
    assert prefix[|segments[0]|] == LineTo(VisualPoint(segments[1][0], w, rect));
  }

  lemma ConnectsShift(segments: seq<Segment>, w: Window, rect: Rect, i: nat)
    requires NonEmptySegments(segments) && 0 < i && i + 1 < |segments|
    requires ConnectsAt(segments[1..], w, rect, i - 1)
    ensures ConnectsAt(segments, w, rect, i)
  {
    var rest := segments[1..];
    var prefix := PathFrom(segments[0], w, rect) + [LineTo(VisualPoint(segments[1][0], w, rect))];
    var tail := CompoundPath(rest, w, rect);
    CompoundPathStep(segments, w, rect);
    SegmentStartStep(segments, i);
    var s' := SegmentStart(rest, i - 1);
    assert rest[i - 1] == segments[i] && rest[i] == segments[i + 1];
    IndexOfJoin(prefix, tail, s' + |segments[i]|);
  }

  /** After segment `i`'s subpath comes a line to the visual first point of segment `i + 1`. */
  lemma {:induction false} CompoundPathConnects(segments: seq<Segment>, w: Window, rect: Rect, i: nat)
    requires NonEmptySegments(segments) && i + 1 < |segments|
    ensures SegmentStart(segments, i) + |segments[i]| < |CompoundPath(segments, w, rect)|
    ensures CompoundPath(segments, w, rect)[SegmentStart(segments, i) + |segments[i]|]
      == LineTo(VisualPoint(segments[i + 1][0], w, rect))
  {
    if i == 0 {
      ConnectsFirst(segments, w, rect);
    } else {
      CompoundPathConnects(segments[1..], w, rect, i - 1);
      ConnectsShift(segments, w, rect, i);
    }
  }
}

=== FILE: chart_view_animation.dfy ===
/**
 * `configure(with:)` and `animate(from:to:)` of the multi-segment chart
 * view. Unlike the earlier view, it always draws the compound path of every
 * segment, into the inset rectangle `rect` (`insetBounds`), and it accepts
 * no view model at all, which clears the layers. A later view model
 * animates from the resampled previous points to the resampled new ones,
 * each drawn as one polyline.
 */
module ChartViewAnimation {
  import opened Optional
  import opened Geometry
  import ChartView
  import Matching
  import Resampler
  import Selection
  import ViewModel

  /** `Constants.currentAnimationDuration` of this view, in seconds. */
  const CurrentAnimationDuration: real := 0.3

  /** A path animation from one path to another, over a duration. */
  datatype PathAnimation = PathAnimation(from: seq<PathElement>, to: seq<PathElement>, duration: real)

  /**
   * What `configure` leaves behind: the layer's path (`None` once the layers
   * are cleared), the path animation added, if any, the stored view model,
   * the selection state, and whether the chart was faded back in, which
   * `resetSelection` does only while a view model is shown.
   */
  datatype Configured = Configured(path: Option<seq<PathElement>>, animation: Option<PathAnimation>,
                                   current: Option<ViewModel.ViewModel>,
                                   selection: Selection.SelectionState, fadedIn: bool)

  /**
   * `existingAnimationPoints(oldViewModel:) ?? oldDataPoints`: the running
   * animation's visual points read back with `dataPoint`, or else the
   * previous model's points.
   */
  function AnimationSource(previous: ViewModel.ViewModel, inFlight: Option<seq<Point>>, rect: Rect): (r: seq<Point>)
    requires inFlight.Some? ==> rect.width != 0.0 && rect.height != 0.0
    ensures inFlight.None? ==> r == previous.AllDataPoints()
    ensures inFlight.Some? ==>
      && |r| == |inFlight.value|
      && forall i :: 0 <= i < |r| ==> r[i] == ChartView.DataPoint(inFlight.value[i], previous.Window(), rect)
  {
    match inFlight
    case None => previous.AllDataPoints()
    case Some(visual) =>
      seq(|visual|, i requires 0 <= i < |visual| => ChartView.DataPoint(visual[i], previous.Window(), rect))
  }

  /**
   * Interrupting an animation resumes from the points it was showing: read
   * back in a rectangle at (0, 0), the visual points of a point list give
   * that list again.
   */
  lemma InFlightRoundTrip(previous: ViewModel.ViewModel, points: seq<Point>, rect: Rect)
    requires rect.minX == 0.0 && rect.minY == 0.0 && rect.width > 0.0 && rect.height > 0.0
    requires previous.Window().XRange() > 0.0 && previous.Window().YRange() > 0.0
    ensures AnimationSource(previous, Some(ChartView.VisualPoints(points, previous.Window(), rect)), rect) == points
  {
    var r := AnimationSource(previous, Some(ChartView.VisualPoints(points, previous.Window(), rect)), rect);
    forall i | 0 <= i < |points|
      ensures r[i] == points[i]
    {
      ChartView.DataPointRoundTrip(points[i], previous.Window(), rect);
    }
  }

  /** The polyline the animation starts from: the resampled start points in the old window. */
  function StartPath(source: seq<Point>, target: seq<Point>, previous: Window, rect: Rect): (r: seq<PathElement>)
    requires Resampler.ResampleReady(source, target)
    ensures Moves(r) <= 1
  {
    ChartView.PathFrom(Resampler.AnimationStartPoints(source, target), previous, rect)
  }

  /** The polyline the animation ends at: the resampled end points in the new window. */
  function EndPath(source: seq<Point>, target: seq<Point>, next: Window, rect: Rect): (r: seq<PathElement>)
    requires Resampler.ResampleReady(source, target)
    ensures Moves(r) <= 1
  {
    ChartView.PathFrom(Resampler.AnimationEndPoints(source, target), next, rect)
  }

  /**
   * `animate(from:to:)` from `source` to `target`: a polyline through the
   * resampled start points mapped with the previous window, and one through
   * the resampled end points mapped with the new window, over the current
   * duration (`AnimateResamples` states the points).
   */
  function Animate(source: seq<Point>, target: seq<Point>, previous: Window, next: Window, rect: Rect)
    : (a: PathAnimation)
    requires Resampler.ResampleReady(source, target)
    ensures a.duration == CurrentAnimationDuration
  {
    var from := StartPath(source, target, previous, rect);
    var to := EndPath(source, target, next, rect);
    PathAnimation(from, to, CurrentAnimationDuration)
  }

  /** The animation runs from the resampled start points in the old window to the resampled end points in the new one. */
  lemma AnimateResamples(source: seq<Point>, target: seq<Point>, previous: Window, next: Window, rect: Rect)
    requires Resampler.ResampleReady(source, target)
    ensures var a := Animate(source, target, previous, next, rect);
      && Moves(a.from) <= 1 && Moves(a.to) <= 1
      && AllPoints(a.from) == ChartView.VisualPoints(Resampler.AnimationStartPoints(source, target), previous, rect)
      && AllPoints(a.to) == ChartView.VisualPoints(Resampler.AnimationEndPoints(source, target), next, rect)
  {
  }

  /**
   * `configure(with:)` into the inset rectangle `rect`. The selection is
   * reset first. No view model clears the layers and forgets the current
   * one. Otherwise the layer shows the compound path of every segment, one
   * subpath each, and an earlier view model adds an animation from its
   * points (or the running animation's) to the new ones. `inFlight` is the
   * visual path of a running animation, if any. The segments are non-empty,
   * the data set's invariant.
   */
  function Configure(current: Option<ViewModel.ViewModel>, vm: Option<ViewModel.ViewModel>, rect: Rect,
                     inFlight: Option<seq<Point>>): (r: Configured)
    requires vm.Some? ==> ChartView.NonEmptySegments(vm.value.Segments())
    requires vm.Some? && current.Some? && inFlight.Some? ==> rect.width != 0.0 && rect.height != 0.0
    requires vm.Some? && current.Some? ==>
      Resampler.ResampleReady(AnimationSource(current.value, inFlight, rect), vm.value.AllDataPoints())
    ensures r.current == vm && r.selection == Selection.Unselected
    ensures r.fadedIn <==> current.Some?
    ensures vm.None? ==> r.path.None? && r.animation.None?
    ensures vm.Some? ==>
      && r.path.Some? && Moves(r.path.value) == |vm.value.Segments()|
      && r.path.value == ChartView.CompoundPath(vm.value.Segments(), vm.value.Window(), rect)
    ensures vm.Some? ==> (r.animation.Some? <==> current.Some?)
    ensures vm.Some? && current.Some? ==>
      r.animation == Some(Animate(AnimationSource(current.value, inFlight, rect), vm.value.AllDataPoints(),
                                  current.value.Window(), vm.value.Window(), rect))
  {
    var fadedIn := current.Some?;
    match vm
    case None => Configured(None, None, None, Selection.Unselected, fadedIn)
    case Some(next) =>
      var path := ChartView.CompoundPath(next.Segments(), next.Window(), rect);
      match current
      case None => Configured(Some(path), None, vm, Selection.Unselected, fadedIn)
      case Some(previous) =>
        var animation := Animate(AnimationSource(previous, inFlight, rect), next.AllDataPoints(),
                                 previous.Window(), next.Window(), rect);
        Configured(Some(path), Some(animation), vm, Selection.Unselected, fadedIn)
  }
}

=== FILE: early_resampler.dfy ===
/**
 * The first version of the resampler and path builder (`Path.swift`): it
 * works on visual points and fills the smaller side by nearest-match only,
 * one output point per point of the larger side, so both outputs have the
 * same length.
 */
module EarlyResampler {
  import opened Geometry
  import opened Matching

  /**
   * `Path.path(from:)`: a move to the first point, then a line to EVERY
   * point, the first one included. The first point is read with `first!`,
   * which traps on an empty list.
   */
  function PathFrom(points: seq<Point>): (r: seq<PathElement>)
    requires |points| > 0
    ensures r == Polyline([points[0]] + points)
  {
    [MoveTo(points[0])] + seq(|points|, i requires 0 <= i < |points| => LineTo(points[i]))
  }

  /**
   * `createAnimationStartPoints(from:target:)`. With at least as many source
   * as target points it returns the source. Otherwise the i-th result is the
   * source point whose normalised x is nearest the i-th target point's.
   */
  function AnimationStartPoints(source: seq<Point>, target: seq<Point>): (r: seq<Point>)
    requires |source| < |target| ==> Resamplable(source) && Resamplable(target)
    ensures |source| >= |target| ==> r == source
    ensures |source| < |target| ==> |r| == |target|
    ensures |source| < |target| ==> forall i :: 0 <= i < |r| ==> r[i] in source
    ensures |source| < |target| ==> forall i, k :: 0 <= i < |r| && 0 <= k < |source| ==>
      Abs(Normalize(target[i], target).x - Normalize(r[i], source).x)
        <= Abs(Normalize(target[i], target).x - Normalize(source[k], source).x)
  {
    if |source| >= |target| then source
    else NearestMatches(target, source)
  }

  /**
   * `createAnimationFinishPoints(from:target:)`. With at most as many source
   * as target points it returns the target. Otherwise the i-th result is the
   * target point whose normalised x is nearest the i-th source point's.
   */
  function AnimationFinishPoints(source: seq<Point>, target: seq<Point>): (r: seq<Point>)
    requires |source| > |target| ==> Resamplable(source) && Resamplable(target)
    ensures |source| <= |target| ==> r == target
    ensures |source| > |target| ==> |r| == |source|
    ensures |source| > |target| ==> forall i :: 0 <= i < |r| ==> r[i] in target
    ensures |source| > |target| ==> forall i, k :: 0 <= i < |r| && 0 <= k < |target| ==>
      Abs(Normalize(source[i], source).x - Normalize(r[i], target).x)
        <= Abs(Normalize(source[i], source).x - Normalize(target[k], target).x)
  {
    if |source| <= |target| then target
    else NearestMatches(source, target)
  }

  /**
   * The mapping both directions share: normalise `from` and `into`, take for
   * each point of `from` the closest normalised point of `into`, and
   * denormalise it in `into`.
   */
  function NearestMatches(from: seq<Point>, into: seq<Point>): (r: seq<Point>)
    requires Resamplable(from) && Resamplable(into)
    ensures |r| == |from|
    ensures forall i :: 0 <= i < |r| ==> r[i] in into
    ensures forall i, k :: 0 <= i < |r| && 0 <= k < |into| ==>
      Abs(Normalize(from[i], from).x - Normalize(r[i], into).x)
        <= Abs(Normalize(from[i], from).x - Normalize(into[k], into).x)
  {
    NearestMatchesAll(from, into);
    DenormalizeAll(ClosestMatches(from, into), into)
  }

  lemma NearestMatchesAll(from: seq<Point>, into: seq<Point>)
    requires Resamplable(from) && Resamplable(into)
    ensures var r := DenormalizeAll(ClosestMatches(from, into), into);
      && (forall i :: 0 <= i < |r| ==> r[i] in into)
      && forall i, k :: 0 <= i < |r| && 0 <= k < |into| ==>
           Abs(Normalize(from[i], from).x - Normalize(r[i], into).x)
             <= Abs(Normalize(from[i], from).x - Normalize(into[k], into).x)
  {
    forall i | 0 <= i < |from|
      ensures var m := DenormalizeAll(ClosestMatches(from, into), into)[i];
        && m in into
        && forall k :: 0 <= k < |into| ==>
             Abs(Normalize(from[i], from).x - Normalize(m, into).x)
               <= Abs(Normalize(from[i], from).x - Normalize(into[k], into).x)
    {
      NearestMatch(from, into, i);
    }
  }

  /** For each normalised point of `from`, the closest normalised point of `into`. */
  function ClosestMatches(from: seq<Point>, into: seq<Point>): (r: seq<Point>)
    requires Resamplable(from) && Resamplable(into)
    ensures |r| == |from|
  {
    NormalizedCollection(from);
    NormalizedCollection(into);
    var nf := NormalizeAll(from, from);
    var ni := NormalizeAll(into, into);
    seq(|nf|, i requires 0 <= i < |nf| => Closest(nf[i], ni))
  }

  /** The i-th match is the closest normalised point of `into`, denormalised. */
  lemma ClosestMatchAt(from: seq<Point>, into: seq<Point>, i: int)
    requires Resamplable(from) && Resamplable(into) && 0 <= i < |from|
    ensures var ni := NormalizeAll(into, into);
      var q := Normalize(from[i], from);
      && 0.0 <= q.x && |ni| >= 2 && ni[0].x <= q.x
      && DenormalizeAll(ClosestMatches(from, into), into)[i] == Denormalize(Closest(q, ni), into)
  {
    NormalizedInUnit(from, i);
    NormalizedCollection(into);
    assert Normalize(from[i], from) == NormalizeAll(from, from)[i];
  }

  /** The i-th match is a point of `into`, and no point of `into` is nearer in normalised x. */
  lemma NearestMatch(from: seq<Point>, into: seq<Point>, i: int)
    requires Resamplable(from) && Resamplable(into) && 0 <= i < |from|
    ensures var m := DenormalizeAll(ClosestMatches(from, into), into)[i];
      var q := Normalize(from[i], from).x;
      && m in into
      && forall k :: 0 <= k < |into| ==> Abs(q - Normalize(m, into).x) <= Abs(q - Normalize(into[k], into).x)
  {
    ClosestMatchAt(from, into, i);
    NearestDenormalized(Normalize(from[i], from), into);
  }

  /** Both outputs always have the length of the larger input. */
  lemma EqualCardinality(source: seq<Point>, target: seq<Point>)
    requires |source| < |target| ==> Resamplable(source) && Resamplable(target)
    requires |source| > |target| ==> Resamplable(source) && Resamplable(target)
    ensures var n := if |source| >= |target| then |source| else |target|;
      |AnimationStartPoints(source, target)| == n && |AnimationFinishPoints(source, target)| == n
  {
  }
}

=== FILE: extent.dfy ===
/**
 * The default bounds both view models derive from their data: each bound
 * is the explicit value when one is given, else the x or y of the first or
 * last point after sorting all points by that coordinate, else 0.
 */
module Extent {
  import opened Optional
  import opened Geometry
  import Sorting

  /** `points.sorted { key($0) < key($1) }.first?.key`: the least key, if there is a point. */
  function Lowest(points: seq<Point>, key: Point -> real): (r: Option<real>)
    ensures r.None? <==> points == []
    ensures r.Some? ==> (exists p :: p in points && key(p) == r.value) && forall p :: p in points ==> r.value <= key(p)
  {
    var sorted := Sorting.SortBy(points, key);
    if sorted == [] then None
    else
      Sorting.SortedFirstIsLeast(points, sorted, key);
      Some(key(sorted[0]))
  }

  /** `points.sorted { key($0) < key($1) }.last?.key`: the greatest key, if there is a point. */
  function Highest(points: seq<Point>, key: Point -> real): (r: Option<real>)
    ensures r.None? <==> points == []
    ensures r.Some? ==> (exists p :: p in points && key(p) == r.value) && forall p :: p in points ==> key(p) <= r.value
  {
    var sorted := Sorting.SortBy(points, key);
    if sorted == [] then None
    else
      Sorting.SortedLastIsGreatest(points, sorted, key);
      Some(key(sorted[|sorted| - 1]))
  }

  /** `explicit ?? derived ?? 0` */
  function Bound(explicit: Option<real>, derived: Option<real>): (r: real)
    ensures explicit.Some? ==> r == explicit.value
    ensures explicit.None? && derived.Some? ==> r == derived.value
    ensures explicit.None? && derived.None? ==> r == 0.0
  {
    explicit.GetOr(derived.GetOr(0.0))
  }

  /**
   * The window of a view model's `init`: every given bound is kept, every
   * missing one is the least or greatest coordinate over all points, or 0
   * without points.
   */
  function DeriveWindow(points: seq<Point>, minX: Option<real>, maxX: Option<real>, minY: Option<real>, maxY: Option<real>)
    : (w: Window)
    ensures minX.Some? ==> w.minX == minX.value
    ensures maxX.Some? ==> w.maxX == maxX.value
    ensures minY.Some? ==> w.minY == minY.value
    ensures maxY.Some? ==> w.maxY == maxY.value
    ensures points == [] && minX.None? ==> w.minX == 0.0
    ensures points == [] && maxX.None? ==> w.maxX == 0.0
    ensures points == [] && minY.None? ==> w.minY == 0.0
    ensures points == [] && maxY.None? ==> w.maxY == 0.0
    ensures points != [] && minX.None? ==>
      (exists p :: p in points && p.x == w.minX) && forall p :: p in points ==> w.minX <= p.x
    ensures points != [] && maxX.None? ==>
      (exists p :: p in points && p.x == w.maxX) && forall p :: p in points ==> p.x <= w.maxX
    ensures points != [] && minY.None? ==>
      (exists p :: p in points && p.y == w.minY) && forall p :: p in points ==> w.minY <= p.y
    ensures points != [] && maxY.None? ==>
      (exists p :: p in points && p.y == w.maxY) && forall p :: p in points ==> p.y <= w.maxY
  {
    Window(Bound(minX, Lowest(points, X)), Bound(maxX, Highest(points, X)),
           Bound(minY, Lowest(points, Y)), Bound(maxY, Highest(points, Y)))
  }

  /** A given bound replaces only its own field of the derived window. */
  lemma ExplicitBoundOverridesOnlyItsField(points: seq<Point>, a: real)
    ensures DeriveWindow(points, Some(a), None, None, None) == DeriveWindow(points, None, None, None, None).(minX := a)
    ensures DeriveWindow(points, None, Some(a), None, None) == DeriveWindow(points, None, None, None, None).(maxX := a)
    ensures DeriveWindow(points, None, None, Some(a), None) == DeriveWindow(points, None, None, None, None).(minY := a)
    ensures DeriveWindow(points, None, None, None, Some(a)) == DeriveWindow(points, None, None, None, None).(maxY := a)
  {
  }

  /** Derived bounds enclose every point. */
  lemma DerivedWindowEnclosesPoints(points: seq<Point>)
    ensures var w := DeriveWindow(points, None, None, None, None);
      forall p :: p in points ==> w.minX <= p.x <= w.maxX && w.minY <= p.y <= w.maxY
  {
    var w := DeriveWindow(points, None, None, None, None);
    forall p | p in points
      ensures w.minX <= p.x <= w.maxX && w.minY <= p.y <= w.maxY
    {
    }
  }

  /** So derived ranges are never negative. */
  lemma DerivedRangesNonNegative(points: seq<Point>)
    ensures DeriveWindow(points, None, None, None, None).XRange() >= 0.0
    ensures DeriveWindow(points, None, None, None, None).YRange() >= 0.0
  {
    if points != [] {
      DerivedWindowEnclosesPoints(points);
      assert points[0] in points;
    }
  }

  /** One point gives a window of that single point, with both ranges 0. */
  lemma SinglePointWindow(p: Point)
    ensures DeriveWindow([p], None, None, None, None) == Window(p.x, p.x, p.y, p.y)
    ensures DeriveWindow([p], None, None, None, None).XRange() == 0.0
    ensures DeriveWindow([p], None, None, None, None).YRange() == 0.0
  {
    var w := DeriveWindow([p], None, None, None, None);
    assert p in [p];
    assert forall q :: q in [p] ==> q == p;
  }
}

=== FILE: geometry.dfy ===
/**
 * Value types shared by every version of the chart: points as pairs of
 * reals (the source's `CGFloat` coordinates, without rounding), segments as
 * point lists, the bounds a view model exposes, rectangles, and the
 * move/line elements a `UIBezierPath` is built from.
 */
module Geometry {
  import opened Optional
  import Sorting

  /** `LineChartDataPoint` and `CGPoint`: equality and hashing by (x, y). */
  datatype Point = Point(x: real, y: real)

  function X(p: Point): real { p.x }
  function Y(p: Point): real { p.y }

  ghost predicate SortedByX(s: seq<Point>) {
    Sorting.SortedBy(s, X)
  }

  /** `LineChartDataSegment.dataPoints`; the line style is not modelled. */
  type Segment = seq<Point>

  /** Colours are opaque here; only their identity matters. */
  datatype LineStyle = LineStyle(lineWidth: real, lineColor: nat, lineDashPattern: Option<seq<real>>)

  datatype ReferenceLine = ReferenceLine(y: real, style: LineStyle)

  /** The data-space window a view model exposes: `minX`, `maxX`, `minY`, `maxY`. */
  datatype Window = Window(minX: real, maxX: real, minY: real, maxY: real) {
    function XRange(): real { maxX - minX }
    function YRange(): real { maxY - minY }
  }

  /** A `CGRect` by origin and size. */
  datatype Rect = Rect(minX: real, minY: real, width: real, height: real)

  /** A view's own `bounds`: its size, at the origin. */
  function ViewBounds(width: real, height: real): Rect {
    Rect(0.0, 0.0, width, height)
  }

  /** The sum of the segments' lengths. */
  function TotalLength(segments: seq<Segment>): nat {
    if segments == [] then 0 else |segments[0]| + TotalLength(segments[1..])
  }

  /** `segments.flatMap { $0.dataPoints }`: the segments' points, in order. */
  function Flatten(segments: seq<Segment>): (r: seq<Point>)
    ensures |r| == TotalLength(segments)
    ensures |segments| > 0 ==> r[..|segments[0]|] == segments[0]
  {
    if segments == [] then [] else segments[0] + Flatten(segments[1..])
  }

  /** A point occurs in the flattened list exactly when it occurs in one of the segments. */
  lemma {:induction false} FlattenMembership(segments: seq<Segment>, p: Point)
    ensures p in Flatten(segments) <==> exists i :: 0 <= i < |segments| && p in segments[i]
  {
    if segments != [] {
      FlattenMembership(segments[1..], p);
      if p in Flatten(segments[1..]) {
        var i :| 0 <= i < |segments[1..]| && p in segments[1..][i];
        assert p in segments[i + 1];
      }
      if exists i :: 0 <= i < |segments| && p in segments[i] {
        var i :| 0 <= i < |segments| && p in segments[i];
        if i > 0 {
          assert p in segments[1..][i - 1];
        }
      }
    }
  }

  /** Flattening distributes over concatenation of segment lists. */
  lemma {:induction false} FlattenAppend(a: seq<Segment>, b: seq<Segment>)
    ensures Flatten(a + b) == Flatten(a) + Flatten(b)
  {
    if a != [] {
      var ab := a + b;
      assert ab[0] == a[0] && ab[1..] == a[1..] + b;
      FlattenAppend(a[1..], b);
      calc {
        Flatten(ab);
        a[0] + Flatten(a[1..] + b);
        a[0] + (Flatten(a[1..]) + Flatten(b));
        (a[0] + Flatten(a[1..])) + Flatten(b);
      }
    } else {
      assert a + b == b;
    }
  }

  /** One element of a path: `move(to:)` or `addLine(to:)`. */
  datatype PathElement = MoveTo(to: Point) | LineTo(to: Point)

  /**
   * The path every `path(from:)` draws through a list of vertices: a move to
   * the first vertex, then a line to each further vertex in order. No
   * vertices give the empty path.
   */
  function Polyline(vs: seq<Point>): (r: seq<PathElement>)
    ensures |r| == |vs|
    ensures forall i :: 0 <= i < |vs| ==> r[i].to == vs[i]
    ensures forall i :: 0 <= i < |vs| ==> (r[i].MoveTo? <==> i == 0)
  {
    if vs == [] then []
    else [MoveTo(vs[0])] + seq(|vs| - 1, i requires 0 <= i < |vs| - 1 => LineTo(vs[i + 1]))
  }

  /** `CGPath.allPoints`: the point each element of a path carries. */
  function AllPoints(path: seq<PathElement>): seq<Point> {
    seq(|path|, i requires 0 <= i < |path| => path[i].to)
  }

  /** The number of subpaths a path starts. */
  function Moves(path: seq<PathElement>): nat {
    if path == [] then 0 else (if path[0].MoveTo? then 1 else 0) + Moves(path[1..])
  }

  lemma {:induction false} MovesAppend(a: seq<PathElement>, b: seq<PathElement>)
    ensures Moves(a + b) == Moves(a) + Moves(b)
  {
    if a != [] {
      assert (a + b)[1..] == a[1..] + b;
      MovesAppend(a[1..], b);
    } else {
      assert a + b == b;
    }
  }

  /** Reading a polyline's points back gives its vertices, and it starts exactly one subpath when non-empty. */
  lemma {:induction false} PolylineRoundTrip(vs: seq<Point>)
    ensures AllPoints(Polyline(vs)) == vs
    ensures Moves(Polyline(vs)) == (if vs == [] then 0 else 1)
  {
    var r := Polyline(vs);
    if vs != [] {
      NoMovesAfterFirst(r[1..]);
    }
  }

  lemma {:induction false} NoMovesAfterFirst(path: seq<PathElement>)
    requires forall i :: 0 <= i < |path| ==> path[i].LineTo?
    ensures Moves(path) == 0
  {
    if path != [] {
      NoMovesAfterFirst(path[1..]);
    }
  }
}

=== FILE: legacy_chart_view.dfy ===
/**
 * The earlier single-list chart view: it maps points into its own bounds
 * (no insets), draws one point list as one path, and on every later
 * configure animates from the resampled previous points to the resampled new
 * points, with the same resampler as the multi-segment view.
 */
module LegacyChartView {
  import opened Optional
  import opened Geometry
  import ChartView
  import Resampler
  import Matching
  import LegacyViewModel

  /** `visualPoint(from:with:)`: into the view's bounds, y flipped, with the fallbacks for windows without extent. */
  function VisualPoint(p: Point, w: Window, width: real, height: real): (v: Point)
    ensures w.XRange() <= 0.0 ==> v.x == 0.0
    ensures w.YRange() <= 0.0 ==> v.y == height / 2.0
    ensures w.XRange() > 0.0 ==> v.x * w.XRange() == (p.x - w.minX) * width
    ensures w.YRange() > 0.0 ==> (height - v.y) * w.YRange() == (p.y - w.minY) * height
  {
    var v := ChartView.VisualPoint(p, w, ViewBounds(width, height));
    var sx, sy := ChartView.ScaledX(p, w), ChartView.ScaledY(p, w);
    assert v.x == sx * width && v.y == height - sy * height;
    assert (sx * width) * w.XRange() == (sx * w.XRange()) * width;
    assert (sy * height) * w.YRange() == (sy * w.YRange()) * height;
    v
  }

  /** `dataPoint(from:with:)`: the inverse of `VisualPoint` when both ranges are positive. */
  function DataPoint(v: Point, w: Window, width: real, height: real): (p: Point)
    requires width != 0.0 && height != 0.0
    ensures w.XRange() > 0.0 && w.YRange() > 0.0 ==> VisualPoint(p, w, width, height) == v
  {
    ChartView.DataPoint(v, w, ViewBounds(width, height))
  }

  /** Mapping a point into the view and reading it back gives the point again. */
  lemma DataPointRoundTrip(p: Point, w: Window, width: real, height: real)
    requires w.XRange() > 0.0 && w.YRange() > 0.0 && width > 0.0 && height > 0.0
    ensures DataPoint(VisualPoint(p, w, width, height), w, width, height) == p
  {
    ChartView.DataPointRoundTrip(p, w, ViewBounds(width, height));
  }

  /**
   * `path(from:with:)`: a move to the first visual point and a line to each
   * further one, in order; no points give an empty path.
   */
  function PathFrom(points: seq<Point>, w: Window, width: real, height: real): (r: seq<PathElement>)
    ensures |r| == |points|
    ensures forall i :: 0 <= i < |r| ==> r[i].to == VisualPoint(points[i], w, width, height) && (r[i].MoveTo? <==> i == 0)
  {
    ChartView.PathFrom(points, w, ViewBounds(width, height))
  }

  /**
   * `createAnimationStartPoints(from:target:)`: the source itself unless it
   * is the shorter list; then a list sorted by x that keeps every source
   * point.
   */
  function AnimationStartPoints(source: seq<Point>, target: seq<Point>): (r: seq<Point>)
    requires |source| < |target| ==> Resampler.GrowingInputs(source, target)
    ensures |source| >= |target| ==> r == source
    ensures |source| < |target| ==> SortedByX(r) && |r| >= |source| && forall p :: p in source ==> p in r
  {
    var r := Resampler.AnimationStartPoints(source, target);
    assert forall p :: p in source ==> p in multiset(r);
    r
  }

  /**
   * `createAnimationEndPoints(from:target:)`: the target itself unless it is
   * the shorter list; then a list sorted by x that keeps every target point
   * and holds nothing else.
   */
  function AnimationEndPoints(source: seq<Point>, target: seq<Point>): (r: seq<Point>)
    requires |source| > |target| ==> Matching.Resamplable(source) && Matching.Resamplable(target)
    ensures |source| <= |target| ==> r == target
    ensures |source| > |target| ==>
      SortedByX(r) && |r| >= |target| && (forall p :: p in target ==> p in r) && forall p :: p in r ==> p in target
  {
    var r := Resampler.AnimationEndPoints(source, target);
    assert forall p :: p in target ==> p in multiset(r);
    r
  }

  /** `Constants`: the range of animation durations and the current one, in seconds. */
  const MinAnimationDuration: real := 0.3
  const MaxAnimationDuration: real := 5.0
  const CurrentAnimationDuration: real := 3.0

  /** `animationDurationPercentage`: where a duration lies between the shortest and the longest. */
  function AnimationDurationPercentage(duration: real): (pct: real)
    ensures duration == MinAnimationDuration ==> pct == 0.0
    ensures duration == MaxAnimationDuration ==> pct == 1.0
    ensures MinAnimationDuration <= duration <= MaxAnimationDuration ==> 0.0 <= pct <= 1.0
  {
    (duration - MinAnimationDuration) / (MaxAnimationDuration - MinAnimationDuration)
  }

  /** `animationDuration(withPercentage:)`: the duration at a fraction of the way from the shortest to the longest. */
  function AnimationDuration(pct: real): (duration: real)
    ensures pct == 0.0 ==> duration == MinAnimationDuration
    ensures pct == 1.0 ==> duration == MaxAnimationDuration
    ensures 0.0 <= pct <= 1.0 ==> MinAnimationDuration <= duration <= MaxAnimationDuration
  {
    MinAnimationDuration + pct * (MaxAnimationDuration - MinAnimationDuration)
  }

  /** The two mappings are inverse to each other, so the current duration survives the round trip. */
  lemma AnimationDurationRoundTrip(duration: real, pct: real)
    ensures AnimationDuration(AnimationDurationPercentage(duration)) == duration
    ensures AnimationDurationPercentage(AnimationDuration(pct)) == pct
    ensures AnimationDuration(AnimationDurationPercentage(CurrentAnimationDuration)) == CurrentAnimationDuration
  {
  }

  // ---------------------------------------------------------------------
  // configure(with:)
  // ---------------------------------------------------------------------

  /** A path animation from one path to another, over a duration. */
  datatype PathAnimation = PathAnimation(from: seq<PathElement>, to: seq<PathElement>, duration: real)

  /** What `configure` leaves behind: the layer's path, the animation added to it if any, and the stored view model. */
  datatype Configured = Configured(path: seq<PathElement>, animation: Option<PathAnimation>, current: LegacyViewModel.ViewModel)

  /** The in-flight animation's visual points read back as data points of the previous view model. */
  function DataPoints(visual: seq<Point>, w: Window, width: real, height: real): (r: seq<Point>)
    requires width != 0.0 && height != 0.0
    ensures |r| == |visual|
    ensures forall i :: 0 <= i < |r| ==> r[i] == DataPoint(visual[i], w, width, height)
  {
    seq(|visual|, i requires 0 <= i < |visual| => DataPoint(visual[i], w, width, height))
  }

  /** The points an animation starts from: those of a running animation if there is one, else the previous data. */
  function AnimationSource(previous: LegacyViewModel.ViewModel, inFlight: Option<seq<Point>>, width: real, height: real): (r: seq<Point>)
    requires inFlight.Some? ==> width != 0.0 && height != 0.0
    ensures inFlight.None? ==> r == Flatten(previous.dataSet.segments)
    ensures inFlight.Some? ==> r == DataPoints(inFlight.value, previous.Window(), width, height)
  {
    match inFlight
    case None => Flatten(previous.dataSet.segments)
    case Some(visual) => DataPoints(visual, previous.Window(), width, height)
  }

  /**
   * `animate(from:to:)` from `source` in the previous window to `target` in
   * the new one: a path through the start points and one through the end
   * points, over the current duration.
   */
  function Animate(source: seq<Point>, target: seq<Point>, previous: Window, next: Window, width: real, height: real)
    : (a: PathAnimation)
    requires Resampler.ResampleReady(source, target)
    ensures a.duration == CurrentAnimationDuration
    ensures AllPoints(a.from) == ChartView.VisualPoints(AnimationStartPoints(source, target), previous, ViewBounds(width, height))
    ensures AllPoints(a.to) == ChartView.VisualPoints(AnimationEndPoints(source, target), next, ViewBounds(width, height))
  {
    var from := ChartView.PathFrom(AnimationStartPoints(source, target), previous, ViewBounds(width, height));
    var to := ChartView.PathFrom(AnimationEndPoints(source, target), next, ViewBounds(width, height));
    PathAnimation(from, to, CurrentAnimationDuration)
  }

  /**
   * `configure(with:)` on a view of the given size. The first view model
   * draws only its first segment's points, without animation. Every later
   * one draws all its points and animates from the previous points.
   * `inFlight` is the visual path of a running animation, if any. The
   * source reads the first segment's line style with `first!`, so a data
   * set without segments traps; `None` stands for that trap.
   */
  function Configure(current: Option<LegacyViewModel.ViewModel>, vm: LegacyViewModel.ViewModel,
                     width: real, height: real, inFlight: Option<seq<Point>>): (r: Option<Configured>)
    requires |vm.dataSet.segments| > 0 && current.Some? && inFlight.Some? ==> width != 0.0 && height != 0.0
    requires |vm.dataSet.segments| > 0 && current.Some? ==>
      Resampler.ResampleReady(AnimationSource(current.value, inFlight, width, height), Flatten(vm.dataSet.segments))
    ensures r.None? <==> |vm.dataSet.segments| == 0
    ensures r.Some? ==> r.value.current == vm && Moves(r.value.path) <= 1
    ensures r.Some? && current.None? ==>
      && r.value.animation.None?
      && AllPoints(r.value.path) == ChartView.VisualPoints(vm.dataSet.segments[0], vm.Window(), ViewBounds(width, height))
    ensures r.Some? && current.Some? ==>
      && AllPoints(r.value.path) == ChartView.VisualPoints(Flatten(vm.dataSet.segments), vm.Window(), ViewBounds(width, height))
      && r.value.animation == Some(Animate(AnimationSource(current.value, inFlight, width, height), Flatten(vm.dataSet.segments),
                                           current.value.Window(), vm.Window(), width, height))
  {
    if |vm.dataSet.segments| == 0 then None
    else match current
      case None =>
        Some(Configured(ChartView.PathFrom(vm.dataSet.segments[0], vm.Window(), ViewBounds(width, height)), None, vm))
      case Some(previous) =>
        var points := Flatten(vm.dataSet.segments);
        assert |points| >= |vm.dataSet.segments[0]|;
        var path := ChartView.PathFrom(points, vm.Window(), ViewBounds(width, height));
        var animation := Animate(AnimationSource(previous, inFlight, width, height), points, previous.Window(), vm.Window(), width, height);
        Some(Configured(path, Some(animation), vm))
  }
}

=== FILE: legacy_view_model.dfy ===
/**
 * The view model of the earlier single-list chart view: the data window, a
 * data set of styled segments and an optional reference line.
 */
module LegacyViewModel {
  import opened Optional
  import opened Geometry
  import Extent

  /** The earlier `LineChartDataSet`: segments only; their line styles are not modelled. */
  datatype SegmentSet = SegmentSet(segments: seq<Segment>)

  datatype ViewModel = ViewModel(minX: real, maxX: real, minY: real, maxY: real,
                                 dataSet: SegmentSet, referenceLine: Option<ReferenceLine>)
  {
    function Window(): Window { Geometry.Window(minX, maxX, minY, maxY) }

    /** `xRange` */
    function XRange(): (r: real)
      ensures minX + r == maxX
    {
      maxX - minX
    }

    /** `yRange` */
    function YRange(): (r: real)
      ensures minY + r == maxY
    {
      maxY - minY
    }
  }

  /**
   * `init`: the data set and reference line are stored as given; each
   * missing bound is derived from the flattened points of the data set.
   */
  function Init(minX: Option<real>, maxX: Option<real>, minY: Option<real>, maxY: Option<real>,
                dataSet: SegmentSet, referenceLine: Option<ReferenceLine>): (vm: ViewModel)
    ensures vm.dataSet == dataSet && vm.referenceLine == referenceLine
    ensures vm.Window() == Extent.DeriveWindow(Flatten(dataSet.segments), minX, maxX, minY, maxY)
  {
    var w := Extent.DeriveWindow(Flatten(dataSet.segments), minX, maxX, minY, maxY);
    ViewModel(w.minX, w.maxX, w.minY, w.maxY, dataSet, referenceLine)
  }

  /** Without explicit bounds every data point lies inside the window, and both ranges are non-negative. */
  lemma DerivedBoundsEncloseData(dataSet: SegmentSet, referenceLine: Option<ReferenceLine>)
    ensures var vm := Init(None, None, None, None, dataSet, referenceLine);
      && vm.XRange() >= 0.0 && vm.YRange() >= 0.0
      && forall p :: p in Flatten(dataSet.segments) ==> vm.minX <= p.x <= vm.maxX && vm.minY <= p.y <= vm.maxY
  {
    var vm := Init(None, None, None, None, dataSet, referenceLine);
    var points := Flatten(dataSet.segments);
    var w := Extent.DeriveWindow(points, None, None, None, None);
    assert vm.minX == w.minX && vm.maxX == w.maxX && vm.minY == w.minY && vm.maxY == w.maxY;
    Extent.DerivedWindowEnclosesPoints(points);
    Extent.DerivedRangesNonNegative(points);
  }

  /** Without explicit bounds, one point gives zero ranges. */
  lemma SinglePointZeroRanges(p: Point, referenceLine: Option<ReferenceLine>)
    ensures var vm := Init(None, None, None, None, SegmentSet([[p]]), referenceLine);
      vm.XRange() == 0.0 && vm.YRange() == 0.0
  {
    assert Flatten([[p]]) == [p];
    Extent.SinglePointWindow(p);
  }
}

=== FILE: matching.dfy ===
/**
 * The building blocks of every version of the point resampler:
 * `normalize`, `denormalize`, `points(surrounding:)`, `point(closestTo:)`
 * and `interpolate`. The three versions of the chart define them with the
 * same text, so they are modelled once here.
 */
module Matching {
  import opened Geometry
  import Sorting
  import opened Reals

  /**
   * A collection the resampler can work with: at least two points, ascending
   * by x (the order every segment keeps), and a non-zero x span so that
   * normalising does not divide by zero.
   */
  ghost predicate Resamplable(c: seq<Point>) {
    |c| >= 2 && SortedByX(c) && c[0].x < c[|c| - 1].x
  }

  /** `normalize(_:in:)`: rescales x so that the collection's first x is 0 and its last x is 1; y is kept. */
  function Normalize(p: Point, c: seq<Point>): (r: Point)
    requires |c| > 0 && c[0].x != c[|c| - 1].x
    ensures r.y == p.y
    ensures p.x == c[0].x ==> r.x == 0.0
    ensures p.x == c[|c| - 1].x ==> r.x == 1.0
  {
    var d := c[|c| - 1].x - c[0].x;
    assert d / d == 1.0;
    Point((p.x - c[0].x) / d, p.y)
  }

  /** `denormalize(_:in:)`: maps normalised x back into the collection's span; y is kept. */
  function Denormalize(p: Point, c: seq<Point>): (r: Point)
    requires |c| > 0 && c[0].x != c[|c| - 1].x
    ensures r.y == p.y
    ensures p.x == 0.0 ==> r.x == c[0].x
    ensures p.x == 1.0 ==> r.x == c[|c| - 1].x
  {
    Point(c[0].x + p.x * (c[|c| - 1].x - c[0].x), p.y)
  }

  /** Denormalising in the same collection undoes normalising, and the other way round. */
  lemma NormalizeRoundTrip(p: Point, c: seq<Point>)
    requires |c| > 0 && c[0].x != c[|c| - 1].x
    ensures Denormalize(Normalize(p, c), c) == p
    ensures Normalize(Denormalize(p, c), c) == p
  {
    var a, d := c[0].x, c[|c| - 1].x - c[0].x;
    DivMul(p.x - a, d);
    assert Denormalize(Normalize(p, c), c).x == a + (p.x - a) / d * d;
    MulDiv(p.x, d);
    assert Normalize(Denormalize(p, c), c).x == (a + p.x * d - a) / d;
    assert a + p.x * d - a == p.x * d;
  }

  /** In a collection whose span is positive, normalising keeps the order of x. */
  lemma NormalizeMonotone(p: Point, q: Point, c: seq<Point>)
    requires |c| > 0 && c[0].x < c[|c| - 1].x
    ensures p.x <= q.x <==> Normalize(p, c).x <= Normalize(q, c).x
  {
    var a, d := c[0].x, c[|c| - 1].x - c[0].x;
    ScaleMonotone(p.x - a, q.x - a, d);
    assert Normalize(p, c).x == (p.x - a) / d && Normalize(q, c).x == (q.x - a) / d;
  }

  /** In a collection whose span is positive, denormalising keeps the order of x. */
  lemma DenormalizeMonotone(p: Point, q: Point, c: seq<Point>)
    requires |c| > 0 && c[0].x < c[|c| - 1].x
    ensures p.x <= q.x <==> Denormalize(p, c).x <= Denormalize(q, c).x
  {
    var d := c[|c| - 1].x - c[0].x;
    ProductSign(q.x - p.x, d);
    assert Denormalize(q, c).x - Denormalize(p, c).x == (q.x - p.x) * d;
  }

  /** Every normalised point of a resamplable collection lies in [0, 1]. */
  lemma NormalizedInUnit(c: seq<Point>, k: int)
    requires Resamplable(c) && 0 <= k < |c|
    ensures 0.0 <= Normalize(c[k], c).x <= 1.0
  {
    NormalizeMonotone(c[0], c[k], c);
    NormalizeMonotone(c[k], c[|c| - 1], c);
  }

  /** `collection.map { normalize($0, in: collection) }` */
  function NormalizeAll(s: seq<Point>, c: seq<Point>): (r: seq<Point>)
    requires |c| > 0 && c[0].x != c[|c| - 1].x
    ensures |r| == |s|
  {
    seq(|s|, i requires 0 <= i < |s| => Normalize(s[i], c))
  }

  /** `points.map { denormalize($0, in: collection) }` */
  function DenormalizeAll(s: seq<Point>, c: seq<Point>): (r: seq<Point>)
    requires |c| > 0 && c[0].x != c[|c| - 1].x
    ensures |r| == |s|
  {
    seq(|s|, i requires 0 <= i < |s| => Denormalize(s[i], c))
  }

  /** Normalising a resamplable collection in itself yields a list that starts at 0, ends at 1 and is still sorted. */
  lemma NormalizedCollection(c: seq<Point>)
    requires Resamplable(c)
    ensures var n := NormalizeAll(c, c);
      && |n| == |c| && n[0].x == 0.0 && n[|n| - 1].x == 1.0 && SortedByX(n)
      && DenormalizeAll(n, c) == c
      && forall k :: 0 <= k < |n| ==> 0.0 <= n[k].x <= 1.0
  {
    var n := NormalizeAll(c, c);
    forall i, j | 0 <= i < j < |n|
      ensures n[i].x <= n[j].x
    {
      NormalizeMonotone(c[i], c[j], c);
    }
    forall k | 0 <= k < |n|
      ensures 0.0 <= n[k].x <= 1.0
    {
      NormalizedInUnit(c, k);
    }
    forall k | 0 <= k < |c|
      ensures DenormalizeAll(n, c)[k] == c[k]
    {
      NormalizeRoundTrip(c[k], c);
    }
  }

  /**
   * The index the loop in `points(surrounding:in:)` stops at when started
   * at `from`: the first index whose x exceeds `q`, or `|c|` when none does.
   */
  function FirstAbove(q: real, c: seq<Point>, from: nat): (i: nat)
    requires from <= |c|
    ensures from <= i <= |c|
    ensures i < |c| ==> c[i].x > q
    ensures forall j :: from <= j < i ==> c[j].x <= q
    decreases |c| - from
  {
    if from == |c| then |c|
    else if c[from].x > q then from
    else FirstAbove(q, c, from + 1)
  }

  /**
   * `points(surrounding:in:)`, as the index of the right-hand point (the
   * left-hand point is the one before it). The source reads index -1 when
   * the first element already lies right of the query, and index -2 or -1
   * of a list shorter than two, both of which trap; hence the precondition.
   */
  function SurroundingIndex(q: Point, c: seq<Point>): (i: nat)
    requires |c| >= 2 && c[0].x <= q.x
    ensures 1 <= i < |c|
    ensures c[i - 1].x <= q.x
    ensures (exists k :: 0 <= k < |c| && c[k].x > q.x) ==> c[i].x > q.x && forall j :: 0 <= j < i ==> c[j].x <= q.x
    ensures (forall k :: 0 <= k < |c| ==> c[k].x <= q.x) ==> i == |c| - 1
  {
    var i := FirstAbove(q.x, c, 0);
    if i < |c| then i else |c| - 1
  }

  /** The `(left, right)` pair of `points(surrounding:in:)`. */
  function Surrounding(q: Point, c: seq<Point>): (Point, Point)
    requires |c| >= 2 && c[0].x <= q.x
  {
    var i := SurroundingIndex(q, c);
    (c[i - 1], c[i])
  }

  /**
   * `point(closestTo:in:)`: the left neighbour when it is strictly nearer,
   * otherwise the right one, so ties go right.
   */
  function Closest(q: Point, c: seq<Point>): (r: Point)
    requires |c| >= 2 && c[0].x <= q.x
    ensures r in c
    ensures var (left, right) := Surrounding(q, c);
      r == (if q.x - left.x < right.x - q.x then left else right)
  {
    var (left, right) := Surrounding(q, c);
    if q.x - left.x < right.x - q.x then left else right
  }

  function Abs(v: real): real { if v < 0.0 then -v else v }

  /** On a list sorted by x, `Closest` finds a point whose x is nearest to the query's. */
  lemma ClosestIsNearest(q: Point, c: seq<Point>)
    requires |c| >= 2 && c[0].x <= q.x && SortedByX(c)
    ensures forall k :: 0 <= k < |c| ==> Abs(q.x - Closest(q, c).x) <= Abs(q.x - c[k].x)
  {
    var i := SurroundingIndex(q, c);
    forall k | 0 <= k < |c|
      ensures Abs(q.x - Closest(q, c).x) <= Abs(q.x - c[k].x)
    {
      if k < i - 1 {
        assert c[k].x <= c[i - 1].x;
      } else if k > i {
        assert c[i].x <= c[k].x;
      }
    }
  }

  /** `Closest` returns an element of the collection, so on a normalised collection it denormalises to an original point. */
  lemma ClosestDenormalizes(q: Point, c: seq<Point>)
    requires Resamplable(c) && 0.0 <= q.x
    ensures var n := NormalizeAll(c, c);
      |n| >= 2 && n[0].x <= q.x && Denormalize(Closest(q, n), c) in c
  {
    var n := NormalizeAll(c, c);
    NormalizedCollection(c);
    var k :| 0 <= k < |n| && n[k] == Closest(q, n);
    NormalizeRoundTrip(c[k], c);
  }

  /**
   * The closest normalised point, denormalised, is a point of the
   * collection, and no point of the collection is nearer in normalised x.
   */
  lemma NearestDenormalized(q: Point, c: seq<Point>)
    requires Resamplable(c) && 0.0 <= q.x
    ensures var n := NormalizeAll(c, c);
      && |n| >= 2 && n[0].x <= q.x
      && var m := Denormalize(Closest(q, n), c);
      && m in c
      && forall k :: 0 <= k < |c| ==> Abs(q.x - Normalize(m, c).x) <= Abs(q.x - Normalize(c[k], c).x)
  {
    var n := NormalizeAll(c, c);
    ClosestDenormalizes(q, c);
    NormalizedCollection(c);
    var closest := Closest(q, n);
    NormalizeRoundTrip(closest, c);
    ClosestIsNearest(q, n);
    forall k | 0 <= k < |c|
      ensures Abs(q.x - closest.x) <= Abs(q.x - Normalize(c[k], c).x)
    {
      assert n[k] == Normalize(c[k], c);
    }
  }

  /** `p` lies on the straight line through `a` and `b` (written without division). */
  ghost predicate Collinear(p: Point, a: Point, b: Point) {
    (p.y - a.y) * (b.x - a.x) == (p.x - a.x) * (b.y - a.y)
  }

  /**
   * `interpolate(normalized:between:and:)`: the point at the query's x on the
   * straight line through `left` and `right`. The source divides by the
   * neighbours' x difference, hence the precondition.
   */
  function Interpolate(q: Point, left: Point, right: Point): (r: Point)
    requires left.x != right.x
    ensures r.x == q.x
    ensures Collinear(r, left, right)
  {
    var xRange := right.x - left.x;
    var yRange := right.y - left.y;
    var percentage := (q.x - left.x) / xRange;
    var r := Point(left.x + percentage * xRange, left.y + percentage * yRange);
    assert percentage * xRange == q.x - left.x;
    assert (r.y - left.y) * xRange == percentage * yRange * xRange;
    r
  }

  /** Denormalising stretches x by a common factor and keeps y, so it keeps points on a line. */
  lemma DenormalizeCollinear(p: Point, a: Point, b: Point, c: seq<Point>)
    requires |c| > 0 && c[0].x != c[|c| - 1].x && Collinear(p, a, b)
    ensures Collinear(Denormalize(p, c), Denormalize(a, c), Denormalize(b, c))
  {
    var d := c[|c| - 1].x - c[0].x;
    CrossScale(p.y - a.y, b.x - a.x, p.x - a.x, b.y - a.y, d);
    assert Denormalize(b, c).x - Denormalize(a, c).x == (b.x - a.x) * d;
    assert Denormalize(p, c).x - Denormalize(a, c).x == (p.x - a.x) * d;
  }

  /** Between its neighbours in x, the interpolated point's y lies between theirs. */
  lemma InterpolateBetween(q: Point, left: Point, right: Point)
    requires left.x <= q.x <= right.x && left.x < right.x
    ensures var y := Interpolate(q, left, right).y;
      (left.y <= right.y ==> left.y <= y <= right.y) && (right.y <= left.y ==> right.y <= y <= left.y)
  {
    var t := (q.x - left.x) / (right.x - left.x);
    ScaleMonotone(0.0, q.x - left.x, right.x - left.x);
    ScaleMonotone(q.x - left.x, right.x - left.x, right.x - left.x);
    assert 0.0 <= t <= 1.0;
    var yRange := right.y - left.y;
    assert Interpolate(q, left, right).y == left.y + t * yRange;
    if yRange >= 0.0 {
      assert t * yRange <= yRange;
    } else {
      assert t * yRange >= yRange;
    }
  }
}

=== FILE: optional.dfy ===
/** Swift's optional values (`T?`), with the `??` default operator. */
module Optional {

  datatype Option<+T> = None | Some(value: T) {

    /** `self ?? default` */
    function GetOr(default: T): (r: T)
      ensures Some? ==> r == value
      ensures None? ==> r == default
    {
      match this
      case Some(v) => v
      case None => default
    }
  }
}

=== FILE: reals.dfy ===
/** Facts about ordered-field arithmetic that the mapping proofs reuse. */
module Reals {

  /** Scaling by a positive factor keeps the order of reals, both multiplying and dividing. */
  lemma ScaleMonotone(u: real, v: real, d: real)
    requires d > 0.0
    ensures u <= v <==> u * d <= v * d
    ensures u <= v <==> u / d <= v / d
  {
    if u <= v {
      assert (v - u) * d >= 0.0;
      assert v / d - u / d == (v - u) / d;
    } else {
      assert (u - v) * d > 0.0;
      assert u / d - v / d == (u - v) / d;
    }
  }

  /** Multiplying by a non-negative factor keeps a non-strict order. */
  lemma MulNonNegative(u: real, v: real, k: real)
    requires u <= v && k >= 0.0
    ensures u * k <= v * k
  {
    assert (v - u) * k >= 0.0;
  }

  /** Placing a fraction within a non-negative extent keeps its order. */
  lemma PlaceMonotone(a: real, b: real, origin: real, extent: real)
    requires a <= b && extent >= 0.0
    ensures origin + a * extent <= origin + b * extent
  {
    MulNonNegative(a, b, extent);
  }

  /** A product with a positive factor has the sign of the other factor. */
  lemma ProductSign(e: real, d: real)
    requires d > 0.0
    ensures e >= 0.0 <==> e * d >= 0.0
  {
    if e < 0.0 {
      assert (0.0 - e) * d > 0.0;
    }
  }

  /** Flipping a fraction within a non-negative extent reverses its order. */
  lemma FlipMonotone(a: real, b: real, origin: real, extent: real)
    requires a <= b && extent >= 0.0
    ensures origin + (extent - a * extent) >= origin + (extent - b * extent)
  {
    MulNonNegative(a, b, extent);
  }

  /** Dividing and then multiplying by the same non-zero factor cancels. */
  lemma DivMul(u: real, d: real)
    requires d != 0.0
    ensures u / d * d == u
  {
  }

  /** Multiplying and then dividing by the same non-zero factor cancels. */
  lemma MulDiv(u: real, d: real)
    requires d != 0.0
    ensures u * d / d == u
  {
  }

  /** Scaling one factor on each side of an equation of products by the same factor keeps it. */
  lemma CrossScale(e: real, f: real, g: real, h: real, d: real)
    requires e * f == g * h
    ensures e * (f * d) == (g * d) * h
  {
    assert e * (f * d) == (e * f) * d;
    assert (g * d) * h == (g * h) * d;
  }

  /** Division distributes over a sum. */
  lemma DivAdd(u: real, v: real, d: real)
    requires d != 0.0
    ensures (u + v) / d == u / d + v / d
  {
  }
}

=== FILE: resampler.dfy ===
/**
 * The point resampler of the multi-segment chart view
 * (`createAnimationStartPoints` / `createAnimationEndPoints`): given the
 * displayed points (`source`) and the requested points (`target`), it
 * produces the point lists the path-morph animation starts from and ends
 * at. Growing (fewer source than target points) fills the start shape with
 * points interpolated between source neighbours; shrinking fills the end
 * shape with duplicates of the nearest target points.
 *
 * The source keeps the unmapped points in a `Set`, whose iteration order is
 * unspecified, and then sorts by x with an unstable sort. The model
 * enumerates the set in first-occurrence order; every property below is
 * stated as "sorted by x, with this multiset of points", which holds
 * whatever order the set and the sort produce.
 */
module Resampler {
  import opened Geometry
  import opened Matching
  import Sorting

  function SortByX(s: seq<Point>): (r: seq<Point>)
    ensures SortedByX(r) && multiset(r) == multiset(s) && |r| == |s|
  {
    Sorting.SortBy(s, X)
  }

  /**
   * The elements of `s` that are not in `removed`, each once: the contents
   * of `Set(s)` after every removed point has been taken out.
   */
  function Remaining(s: seq<Point>, removed: seq<Point>): (r: seq<Point>)
    ensures forall p :: p in r <==> p in s && p !in removed
    ensures |r| == |set p | p in s && p !in removed|
  {
    if s == [] then []
    else
      var prefix := s[..|s| - 1];
      var last := s[|s| - 1];
      var rest := Remaining(prefix, removed);
      assert s == prefix + [last];
      var before := set p | p in prefix && p !in removed;
      var after := set p | p in s && p !in removed;
      if last in removed || last in rest then
        assert after == before;
        rest
      else
        assert after == before + {last};
        rest + [last]
  }

  /** Denormalising a list that is sorted by x keeps it sorted. */
  lemma DenormalizeSorted(s: seq<Point>, c: seq<Point>)
    requires |c| > 0 && c[0].x < c[|c| - 1].x && SortedByX(s)
    ensures SortedByX(DenormalizeAll(s, c))
  {
    var d := DenormalizeAll(s, c);
    forall i, j | 0 <= i < j < |d|
      ensures d[i].x <= d[j].x
    {
      DenormalizeMonotone(s[i], s[j], c);
    }
  }

  lemma DenormalizeAppend(a: seq<Point>, b: seq<Point>, c: seq<Point>)
    requires |c| > 0 && c[0].x != c[|c| - 1].x
    ensures DenormalizeAll(a + b, c) == DenormalizeAll(a, c) + DenormalizeAll(b, c)
  {
  }

  /** Denormalising a list maps its head and its tail separately. */
  lemma DenormalizeCons(h: Point, t: seq<Point>, c: seq<Point>)
    requires |c| > 0 && c[0].x != c[|c| - 1].x
    ensures DenormalizeAll([h] + t, c) == [Denormalize(h, c)] + DenormalizeAll(t, c)
  {
    DenormalizeAppend([h], t, c);
  }

  /** The tail of a denormalised list is the denormalised tail. */
  lemma DenormalizeTail(s: seq<Point>, c: seq<Point>)
    requires |c| > 0 && c[0].x != c[|c| - 1].x && s != []
    ensures DenormalizeAll(s, c) == [Denormalize(s[0], c)] + DenormalizeAll(s[1..], c)
  {
    assert s == [s[0]] + s[1..];
    DenormalizeCons(s[0], s[1..], c);
  }

  /**
   * Inserting into a sorted list and then denormalising gives the same list
   * as denormalising both and then inserting.
   */
  lemma {:induction false} InsertDenormalize(p: Point, s: seq<Point>, c: seq<Point>)
    requires |c| > 0 && c[0].x < c[|c| - 1].x && SortedByX(s)
    ensures SortedByX(DenormalizeAll(s, c))
    ensures DenormalizeAll(Sorting.Insert(p, s, X), c) == Sorting.Insert(Denormalize(p, c), DenormalizeAll(s, c), X)
  {
    DenormalizeSorted(s, c);
    var ds := DenormalizeAll(s, c);
    var dp := Denormalize(p, c);
    if s == [] {
      Sorting.InsertFront(p, s, X);
      Sorting.InsertFront(dp, ds, X);
      DenormalizeCons(p, s, c);
    } else {
      DenormalizeMonotone(p, s[0], c);
      DenormalizeTail(s, c);
      if p.x <= s[0].x {
        Sorting.InsertFront(p, s, X);
        Sorting.InsertFront(dp, ds, X);
        DenormalizeCons(p, s, c);
      } else {
        Sorting.InsertLater(p, s, X);
        Sorting.InsertLater(dp, ds, X);
        InsertDenormalize(p, s[1..], c);
        DenormalizeCons(s[0], Sorting.Insert(p, s[1..], X), c);
      }
    }
  }

  /**
   * Sorting by x and then denormalising gives the same list as denormalising
   * and then sorting, because denormalising keeps the order of x.
   */
  lemma {:induction false} SortThenDenormalize(s: seq<Point>, c: seq<Point>)
    requires |c| > 0 && c[0].x < c[|c| - 1].x
    ensures DenormalizeAll(SortByX(s), c) == SortByX(DenormalizeAll(s, c))
  {
    if s != [] {
      var t := SortByX(s[1..]);
      Sorting.SortByCons(s, X);
      SortThenDenormalize(s[1..], c);
      InsertDenormalize(s[0], t, c);
      var ds := DenormalizeAll(s, c);
      DenormalizeTail(s, c);
      Sorting.SortByCons(ds, X);
    }
  }

  // ---------------------------------------------------------------------
  // Growing: createAnimationStartPoints
  // ---------------------------------------------------------------------

  /**
   * What growing needs on top of two resamplable collections: no unmapped
   * target point is interpolated between two source points of equal x.
   * Only an unmapped target point at normalised x 1 falls back to the last
   * two source points, so either those differ in x or no unmapped target
   * point sits at 1 (`TargetEndSuffices` gives a simple sufficient case).
   */
  ghost predicate GrowingInputs(source: seq<Point>, target: seq<Point>) {
    && Resamplable(source) && Resamplable(target)
    && (|| source[|source| - 2].x < source[|source| - 1].x
        || forall k :: 0 <= k < |UnmappedTargetList(source, target)| ==> UnmappedTargetList(source, target)[k].x < 1.0)
  }

  /** What both directions of resampling need between the two point lists, whichever is longer. */
  ghost predicate ResampleReady(source: seq<Point>, target: seq<Point>) {
    && (|source| < |target| ==> GrowingInputs(source, target))
    && (|source| > |target| ==> Resamplable(source) && Resamplable(target))
  }

  /** For each normalised source point, the normalised target point it maps to. */
  function MappedTargets(ns: seq<Point>, nt: seq<Point>): (r: seq<Point>)
    requires |nt| >= 2 && forall k :: 0 <= k < |ns| ==> nt[0].x <= ns[k].x
    ensures |r| == |ns| && forall k :: 0 <= k < |r| ==> r[k] in nt
  {
    seq(|ns|, k requires 0 <= k < |ns| => Closest(ns[k], nt))
  }

  /** The normalised target points that no source point maps to, each once. */
  function UnmappedTargetList(source: seq<Point>, target: seq<Point>): (r: seq<Point>)
    requires Resamplable(source) && Resamplable(target)
    ensures forall k :: 0 <= k < |r| ==> r[k] in NormalizeAll(target, target)
  {
    NormalizedCollection(source);
    NormalizedCollection(target);
    var ns := NormalizeAll(source, source);
    var nt := NormalizeAll(target, target);
    Remaining(nt, MappedTargets(ns, nt))
  }

  /** The same points as a set: `unmappedTargetPoints` after the mapping loop. */
  ghost function UnmappedTargets(source: seq<Point>, target: seq<Point>): set<Point>
    requires Resamplable(source) && Resamplable(target)
  {
    NormalizedCollection(source);
    NormalizedCollection(target);
    var ns := NormalizeAll(source, source);
    var nt := NormalizeAll(target, target);
    set p | p in nt && p !in MappedTargets(ns, nt)
  }

  /** The unmapped list enumerates the unmapped set. */
  lemma UnmappedTargetCount(source: seq<Point>, target: seq<Point>)
    requires Resamplable(source) && Resamplable(target)
    ensures |UnmappedTargetList(source, target)| == |UnmappedTargets(source, target)|
    ensures forall p :: p in UnmappedTargetList(source, target) <==> p in UnmappedTargets(source, target)
  {
  }

  /**
   * `interpolate` applied to a point and its `points(surrounding:)` pair.
   * A point left of the last one has a pair of distinct x; any other point
   * gets the last two points, which must then differ in x.
   */
  function InterpolateIn(u: Point, ns: seq<Point>): (r: Point)
    requires |ns| >= 2 && ns[0].x <= u.x
    requires u.x < ns[|ns| - 1].x || ns[|ns| - 2].x < ns[|ns| - 1].x
    ensures r.x == u.x
  {
    var i := SurroundingIndex(u, ns);
    assert u.x < ns[|ns| - 1].x ==> ns[|ns| - 1].x > u.x;
    Interpolate(u, ns[i - 1], ns[i])
  }

  /** The synthetic source points of the start shape, in normalised coordinates. */
  function InterpolatedPoints(source: seq<Point>, target: seq<Point>): (r: seq<Point>)
    requires GrowingInputs(source, target)
    ensures |r| == |UnmappedTargetList(source, target)|
  {
    var ns := NormalizeAll(source, source);
    var unmapped := UnmappedTargetList(source, target);
    NormalizedCollection(source);
    NormalizedCollection(target);
    NormalizeMonotone(source[|source| - 1], source[|source| - 2], source);
    seq(|unmapped|, k requires 0 <= k < |unmapped| => InterpolateIn(unmapped[k], ns))
  }

  /**
   * The synthetic points the start shape gains, in the source's coordinates.
   * The k-th one sits, in the source's normalised x, where the k-th unmapped
   * target point sits in the target's (`SyntheticStartPointsOnSegments`
   * places it on the source's polyline).
   */
  function SyntheticStartPoints(source: seq<Point>, target: seq<Point>): (r: seq<Point>)
    requires GrowingInputs(source, target)
    ensures |r| == |UnmappedTargets(source, target)|
    ensures forall k :: 0 <= k < |r| ==> Normalize(r[k], source).x == UnmappedTargetList(source, target)[k].x
  {
    var r := DenormalizeAll(InterpolatedPoints(source, target), source);
    UnmappedTargetCount(source, target);
    forall k | 0 <= k < |r|
      ensures Normalize(r[k], source).x == UnmappedTargetList(source, target)[k].x
    {
      NormalizeRoundTrip(InterpolatedPoints(source, target)[k], source);
    }
    r
  }

  /**
   * Every synthetic point lies on the source's polyline: on the straight
   * segment between two consecutive source points whose x range holds it.
   */
  lemma SyntheticStartPointsOnSegments(source: seq<Point>, target: seq<Point>)
    requires GrowingInputs(source, target)
    ensures var r := SyntheticStartPoints(source, target);
      forall k :: 0 <= k < |r| ==> exists i :: 1 <= i < |source| && OnSegment(r[k], source[i - 1], source[i])
  {
    var r := SyntheticStartPoints(source, target);
    forall k | 0 <= k < |r|
      ensures exists i :: 1 <= i < |source| && OnSegment(r[k], source[i - 1], source[i])
    {
      SyntheticOnSegment(source, target, k);
    }
  }

  /** `p` lies on the straight segment from `a` to `b`: on their line, within their x and y ranges. */
  ghost predicate OnSegment(p: Point, a: Point, b: Point) {
    && Collinear(p, a, b)
    && a.x <= p.x <= b.x
    && (a.y <= b.y ==> a.y <= p.y <= b.y)
    && (b.y <= a.y ==> b.y <= p.y <= a.y)
  }

  lemma SyntheticOnSegment(source: seq<Point>, target: seq<Point>, k: int)
    requires GrowingInputs(source, target)
    requires 0 <= k < |InterpolatedPoints(source, target)|
    ensures exists i :: 1 <= i < |source| && OnSegment(Denormalize(InterpolatedPoints(source, target)[k], source), source[i - 1], source[i])
  {
    InterpolatedAt(source, target, k);
    InterpolateInOnSegment(UnmappedTargetList(source, target)[k], source);
  }

  /** The k-th synthetic point interpolates the k-th unmapped target point, whose normalised x lies in [0, 1]. */
  lemma InterpolatedAt(source: seq<Point>, target: seq<Point>, k: int)
    requires GrowingInputs(source, target)
    requires 0 <= k < |InterpolatedPoints(source, target)|
    ensures var u := UnmappedTargetList(source, target)[k];
      var ns := NormalizeAll(source, source);
      && 0.0 <= u.x <= 1.0
      && (u.x < 1.0 || source[|source| - 2].x < source[|source| - 1].x)
      && |ns| >= 2 && ns[0].x <= u.x && (u.x < ns[|ns| - 1].x || ns[|ns| - 2].x < ns[|ns| - 1].x)
      && InterpolatedPoints(source, target)[k] == InterpolateIn(u, ns)
  {
    var ns := NormalizeAll(source, source);
    var nt := NormalizeAll(target, target);
    var u := UnmappedTargetList(source, target)[k];
    var j :| 0 <= j < |nt| && nt[j] == u;
    NormalizedInUnit(target, j);
    assert ns[0] == Normalize(source[0], source);
    assert ns[|ns| - 2] == Normalize(source[|source| - 2], source);
    assert ns[|ns| - 1] == Normalize(source[|source| - 1], source);
    NormalizeMonotone(source[|source| - 1], source[|source| - 2], source);
  }

  /**
   * Interpolating a normalised x in [0, 1] between its surrounding points
   * and denormalising gives a point on the segment between the two
   * collection points that surround it.
   */
  lemma InterpolateInOnSegment(u: Point, c: seq<Point>)
    requires Resamplable(c) && 0.0 <= u.x <= 1.0
    requires u.x < 1.0 || c[|c| - 2].x < c[|c| - 1].x
    ensures var ns := NormalizeAll(c, c);
      && |ns| >= 2 && ns[0].x <= u.x && (u.x < ns[|ns| - 1].x || ns[|ns| - 2].x < ns[|ns| - 1].x)
      && var i := SurroundingIndex(u, ns);
        OnSegment(Denormalize(InterpolateIn(u, ns), c), c[i - 1], c[i])
  {
    NormalizedCollection(c);
    var ns := NormalizeAll(c, c);
    NormalizeMonotone(c[|c| - 1], c[|c| - 2], c);
    var i := SurroundingIndex(u, ns);
    assert u.x < 1.0 ==> ns[|ns| - 1].x > u.x;
    assert ns[i - 1].x <= u.x <= ns[i].x && ns[i - 1].x < ns[i].x;
    InterpolateBetween(u, ns[i - 1], ns[i]);
    var v := InterpolateIn(u, ns);
    assert OnSegment(v, ns[i - 1], ns[i]);
    DenormalizeOnSegment(v, ns[i - 1], ns[i], c);
    NormalizeRoundTrip(c[i - 1], c);
    NormalizeRoundTrip(c[i], c);
  }

  /** Denormalising keeps a point on the segment between two others. */
  lemma DenormalizeOnSegment(p: Point, a: Point, b: Point, c: seq<Point>)
    requires |c| > 0 && c[0].x < c[|c| - 1].x && OnSegment(p, a, b)
    ensures OnSegment(Denormalize(p, c), Denormalize(a, c), Denormalize(b, c))
  {
    DenormalizeMonotone(a, p, c);
    DenormalizeMonotone(p, b, c);
    DenormalizeCollinear(p, a, b, c);
  }

  /**
   * Distinct x at the target's right end is enough for growing: the last
   * source point, at normalised x 1, maps to the last target point (ties go
   * right), and every other target point lies left of 1.
   */
  lemma TargetEndSuffices(source: seq<Point>, target: seq<Point>)
    requires Resamplable(source) && Resamplable(target)
    requires target[|target| - 2].x < target[|target| - 1].x
    ensures GrowingInputs(source, target)
  {
    var nt := NormalizeAll(target, target);
    LastSourceMapsToLastTarget(source, target);
    var unmapped := UnmappedTargetList(source, target);
    forall k | 0 <= k < |unmapped|
      ensures unmapped[k].x < 1.0
    {
      var j :| 0 <= j < |nt| && nt[j] == unmapped[k];
      assert j != |nt| - 1;
      BeforeDistinctEndBelowOne(target, j);
    }
  }

  /** When a collection ends in two distinct x, every point before its last normalises below 1. */
  lemma BeforeDistinctEndBelowOne(c: seq<Point>, j: int)
    requires Resamplable(c) && c[|c| - 2].x < c[|c| - 1].x && 0 <= j < |c| - 1
    ensures Normalize(c[j], c).x < 1.0
  {
    NormalizeMonotone(c[|c| - 1], c[j], c);
  }

  /** The last source point, at normalised x 1, maps to the last target point, so that one is never unmapped. */
  lemma LastSourceMapsToLastTarget(source: seq<Point>, target: seq<Point>)
    requires Resamplable(source) && Resamplable(target)
    ensures var ns := NormalizeAll(source, source);
      var nt := NormalizeAll(target, target);
      && |ns| == |source| && |nt| == |target|
      && (forall k :: 0 <= k < |ns| ==> nt[0].x <= ns[k].x)
      && MappedTargets(ns, nt)[|ns| - 1] == nt[|nt| - 1]
      && nt[|nt| - 1] !in UnmappedTargetList(source, target)
  {
    NormalizedCollection(source);
    NormalizedCollection(target);
    var ns := NormalizeAll(source, source);
    var nt := NormalizeAll(target, target);
    var i := SurroundingIndex(ns[|ns| - 1], nt);
    assert i == |nt| - 1;
  }

  /**
   * Why the precondition excludes the remaining case: when the last two
   * source points share their x, an unmapped target point at normalised x 1
   * is interpolated between two points of equal x, a division of zero by
   * zero in the source.
   */
  lemma FlatEndDividesByZero(source: seq<Point>, target: seq<Point>, k: int)
    requires Resamplable(source) && Resamplable(target)
    requires source[|source| - 2].x == source[|source| - 1].x
    requires 0 <= k < |UnmappedTargetList(source, target)| && UnmappedTargetList(source, target)[k].x == 1.0
    ensures var ns := NormalizeAll(source, source);
      var u := UnmappedTargetList(source, target)[k];
      && |ns| >= 2 && ns[0].x <= u.x
      && var i := SurroundingIndex(u, ns);
      && ns[i - 1].x == ns[i].x == u.x
  {
    NormalizedCollection(source);
    var ns := NormalizeAll(source, source);
    assert ns[|ns| - 2] == Normalize(source[|source| - 2], source);
  }

  /**
   * `createAnimationStartPoints(from:target:)`. With at least as many source
   * as target points the source is returned as it is. Otherwise the result
   * is sorted by x and holds exactly the source points plus one synthetic
   * point per distinct unmapped target point.
   */
  function AnimationStartPoints(source: seq<Point>, target: seq<Point>): (r: seq<Point>)
    requires |source| < |target| ==> GrowingInputs(source, target)
    ensures |source| >= |target| ==> r == source
    ensures |source| < |target| ==>
      && SortedByX(r)
      && multiset(r) == multiset(source) + multiset(SyntheticStartPoints(source, target))
      && |r| == |source| + |UnmappedTargets(source, target)|
  {
    if |source| >= |target| then source
    else
      var ns := NormalizeAll(source, source);
      var interpolated := InterpolatedPoints(source, target);
      var r := DenormalizeAll(SortByX(ns + interpolated), source);
      NormalizedCollection(source);
      SortThenDenormalize(ns + interpolated, source);
      DenormalizeAppend(ns, interpolated, source);
      r
  }

  // ---------------------------------------------------------------------
  // Shrinking: createAnimationEndPoints
  // ---------------------------------------------------------------------

  /** For each normalised target point, the normalised source point it maps to. */
  function MappedSources(ns: seq<Point>, nt: seq<Point>): (r: seq<Point>)
    requires |ns| >= 2 && forall k :: 0 <= k < |nt| ==> ns[0].x <= nt[k].x
    ensures |r| == |nt| && forall k :: 0 <= k < |r| ==> r[k] in ns
  {
    seq(|nt|, k requires 0 <= k < |nt| => Closest(nt[k], ns))
  }

  /** The normalised source points that no target point maps to, each once. */
  function UnmappedSourceList(source: seq<Point>, target: seq<Point>): (r: seq<Point>)
    requires Resamplable(source) && Resamplable(target)
    ensures forall k :: 0 <= k < |r| ==> r[k] in NormalizeAll(source, source)
  {
    NormalizedCollection(source);
    NormalizedCollection(target);
    var ns := NormalizeAll(source, source);
    var nt := NormalizeAll(target, target);
    Remaining(ns, MappedSources(ns, nt))
  }

  /** The same points as a set: `unmappedSourcePoints` after the mapping loop. */
  ghost function UnmappedSources(source: seq<Point>, target: seq<Point>): set<Point>
    requires Resamplable(source) && Resamplable(target)
  {
    NormalizedCollection(source);
    NormalizedCollection(target);
    var ns := NormalizeAll(source, source);
    var nt := NormalizeAll(target, target);
    set p | p in ns && p !in MappedSources(ns, nt)
  }

  /** The normalised target point nearest to each unmapped source point. */
  function ClosestTargets(source: seq<Point>, target: seq<Point>): (r: seq<Point>)
    requires Resamplable(source) && Resamplable(target)
    ensures |r| == |UnmappedSourceList(source, target)|
  {
    NormalizedCollection(source);
    NormalizedCollection(target);
    var nt := NormalizeAll(target, target);
    var unmapped := UnmappedSourceList(source, target);
    seq(|unmapped|, k requires 0 <= k < |unmapped| => Closest(unmapped[k], nt))
  }

  /**
   * The duplicates the end shape gains, in the target's coordinates: for the
   * k-th unmapped source point, the target point nearest to it in
   * normalised x.
   */
  function DuplicatedEndPoints(source: seq<Point>, target: seq<Point>): (r: seq<Point>)
    requires Resamplable(source) && Resamplable(target)
    ensures |r| == |UnmappedSources(source, target)|
    ensures forall k :: 0 <= k < |r| ==> r[k] in target
    ensures forall k, j :: 0 <= k < |r| && 0 <= j < |target| ==>
      Abs(UnmappedSourceList(source, target)[k].x - Normalize(r[k], target).x)
        <= Abs(UnmappedSourceList(source, target)[k].x - Normalize(target[j], target).x)
  {
    var r := DenormalizeAll(ClosestTargets(source, target), target);
    forall k | 0 <= k < |r|
      ensures r[k] in target
      ensures forall j :: 0 <= j < |target| ==>
        Abs(UnmappedSourceList(source, target)[k].x - Normalize(r[k], target).x)
          <= Abs(UnmappedSourceList(source, target)[k].x - Normalize(target[j], target).x)
    {
      DuplicateIsNearestTarget(source, target, k);
    }
    r
  }

  lemma DuplicateIsNearestTarget(source: seq<Point>, target: seq<Point>, k: int)
    requires Resamplable(source) && Resamplable(target)
    requires 0 <= k < |ClosestTargets(source, target)|
    ensures var d := Denormalize(ClosestTargets(source, target)[k], target);
      var u := UnmappedSourceList(source, target)[k];
      && d in target
      && forall j :: 0 <= j < |target| ==> Abs(u.x - Normalize(d, target).x) <= Abs(u.x - Normalize(target[j], target).x)
  {
    ClosestTargetAt(source, target, k);
    NearestDenormalized(UnmappedSourceList(source, target)[k], target);
  }

  /** The k-th duplicate, before denormalising, is the normalised target point closest to the k-th unmapped source point. */
  lemma ClosestTargetAt(source: seq<Point>, target: seq<Point>, k: int)
    requires Resamplable(source) && Resamplable(target)
    requires 0 <= k < |ClosestTargets(source, target)|
    ensures var u := UnmappedSourceList(source, target)[k];
      var nt := NormalizeAll(target, target);
      && 0.0 <= u.x && |nt| >= 2 && nt[0].x <= u.x
      && ClosestTargets(source, target)[k] == Closest(u, nt)
  {
    var u := UnmappedSourceList(source, target)[k];
    var ns := NormalizeAll(source, source);
    var j :| 0 <= j < |ns| && ns[j] == u;
    NormalizedInUnit(source, j);
    NormalizedCollection(target);
  }

  /**
   * `createAnimationEndPoints(from:target:)`. With at most as many source as
   * target points the target is returned as it is. Otherwise the result is
   * sorted by x, holds exactly the target points plus one duplicate per
   * distinct unmapped source point, and so consists of target points only.
   */
  function AnimationEndPoints(source: seq<Point>, target: seq<Point>): (r: seq<Point>)
    requires |source| > |target| ==> Resamplable(source) && Resamplable(target)
    ensures |source| <= |target| ==> r == target
    ensures |source| > |target| ==>
      && SortedByX(r)
      && multiset(r) == multiset(target) + multiset(DuplicatedEndPoints(source, target))
      && |r| == |target| + |UnmappedSources(source, target)|
      && forall p :: p in r ==> p in target
  {
    if |source| <= |target| then target
    else
      NormalizedCollection(source);
      NormalizedCollection(target);
      var nt := NormalizeAll(target, target);
      var closest := ClosestTargets(source, target);
      var r := DenormalizeAll(SortByX(nt + closest), target);
      EndPointsAreSortedDuplicates(source, target);
      EndPointsMembers(target, DuplicatedEndPoints(source, target), r);
      r
  }

  /**
   * Sorting the normalised points and then denormalising them, as the
   * source does, gives the target points and their duplicates sorted by x.
   */
  lemma EndPointsAreSortedDuplicates(source: seq<Point>, target: seq<Point>)
    requires Resamplable(source) && Resamplable(target)
    ensures DenormalizeAll(SortByX(NormalizeAll(target, target) + ClosestTargets(source, target)), target)
        == SortByX(target + DuplicatedEndPoints(source, target))
  {
    NormalizedCollection(target);
    var nt := NormalizeAll(target, target);
    var closest := ClosestTargets(source, target);
    SortThenDenormalize(nt + closest, target);
    DenormalizeAppend(nt, closest, target);
  }

  /** A permutation of target points and duplicates of target points holds target points only. */
  lemma EndPointsMembers(target: seq<Point>, duplicates: seq<Point>, r: seq<Point>)
    requires forall k :: 0 <= k < |duplicates| ==> duplicates[k] in target
    requires multiset(r) == multiset(target) + multiset(duplicates)
    ensures forall p :: p in r ==> p in target
  {
    forall p | p in r
      ensures p in target
    {
      assert p in multiset(r);
      if p in multiset(duplicates) {
        var k :| 0 <= k < |duplicates| && duplicates[k] == p;
      }
    }
  }
}

=== FILE: selection.dfy ===
/**
 * Hit-testing and touch selection of the multi-segment chart view. A touch
 * selects the segment holding the data point nearest to it in x; one held
 * touch selects one segment and two held touches select every segment
 * between theirs. Touches are identities whose location is read at each
 * event, passed here as a function.
 */
module Selection {
  import opened Optional
  import opened Geometry
  import opened Matching
  import Sorting
  import ChartView

  // ---------------------------------------------------------------------
  // selectedDataPoint(forTouchLocation:with:)
  // ---------------------------------------------------------------------

  /** `k` is the earliest index whose x is nearest to `qx`. */
  ghost predicate EarliestNearest(points: seq<Point>, qx: real, k: int) {
    && 0 <= k < |points|
    && (forall j :: 0 <= j < |points| ==> Abs(qx - points[k].x) <= Abs(qx - points[j].x))
    && (forall j :: 0 <= j < k ==> Abs(qx - points[k].x) < Abs(qx - points[j].x))
  }

  /**
   * The running choice of the scan over the first `n` points: start with
   * the first point and move to a later one only when it is strictly nearer.
   */
  function NearestIndex(points: seq<Point>, qx: real, n: nat): (k: nat)
    requires 1 <= n <= |points|
    ensures EarliestNearest(points[..n], qx, k)
  {
    if n == 1 then 0
    else
      var k := NearestIndex(points, qx, n - 1);
      assert points[..n - 1] == points[..n][..n - 1];
      if Abs(qx - points[n - 1].x) < Abs(qx - points[k].x) then n - 1 else k
  }

  /** There is only one earliest nearest index. */
  lemma EarliestNearestUnique(points: seq<Point>, qx: real, k: int, k': int)
    requires EarliestNearest(points, qx, k) && EarliestNearest(points, qx, k')
    ensures k == k'
  {
    assert Abs(qx - points[k].x) <= Abs(qx - points[k'].x);
    assert Abs(qx - points[k'].x) <= Abs(qx - points[k].x);
  }

  /**
   * `selectedDataPoint`: of all data points, the earliest one whose x is
   * nearest to the query x. The source starts from `first!`, so the list is
   * non-empty.
   */
  function SelectedDataPoint(points: seq<Point>, qx: real): (r: Point)
    requires |points| > 0
    ensures exists k :: EarliestNearest(points, qx, k) && r == points[k]
  {
    var k := NearestIndex(points, qx, |points|);
    assert points[..|points|] == points;
    points[k]
  }

  /** A larger query never selects a point further left. */
  lemma SelectedDataPointMonotone(points: seq<Point>, q1: real, q2: real)
    requires |points| > 0 && q1 <= q2
    ensures SelectedDataPoint(points, q1).x <= SelectedDataPoint(points, q2).x
  {
    var a, b := SelectedDataPoint(points, q1), SelectedDataPoint(points, q2);
    var ka :| EarliestNearest(points, q1, ka) && a == points[ka];
    var kb :| EarliestNearest(points, q2, kb) && b == points[kb];
    if q1 == q2 {
      EarliestNearestUnique(points, q1, ka, kb);
    } else {
      assert Abs(q1 - a.x) <= Abs(q1 - b.x);
      assert Abs(q2 - b.x) <= Abs(q2 - a.x);
    }
  }

  // ---------------------------------------------------------------------
  // segmentIndex(forTouchLocation:with:)
  // ---------------------------------------------------------------------

  /** The largest index below `n` whose segment starts at or before `x`, scanning backwards. */
  function LastStartAtOrBefore(segments: seq<Segment>, x: real, n: nat): (r: Option<nat>)
    requires ChartView.NonEmptySegments(segments) && n <= |segments|
    ensures r.None? <==> forall i :: 0 <= i < n ==> segments[i][0].x > x
    ensures r.Some? ==>
      && r.value < n && segments[r.value][0].x <= x
      && forall j :: r.value < j < n ==> segments[j][0].x > x
  {
    if n == 0 then None
    else if x >= segments[n - 1][0].x then Some(n - 1)
    else LastStartAtOrBefore(segments, x, n - 1)
  }

  /**
   * `segmentIndex`: the last segment whose first point lies at or before
   * `x`, or the first segment when there is none.
   */
  function SegmentIndex(segments: seq<Segment>, x: real): (i: nat)
    requires ChartView.NonEmptySegments(segments) && |segments| > 0
    ensures i < |segments|
    ensures (exists j :: 0 <= j < |segments| && segments[j][0].x <= x) ==>
      segments[i][0].x <= x && forall j :: i < j < |segments| ==> segments[j][0].x > x
    ensures (forall j :: 0 <= j < |segments| ==> segments[j][0].x > x) ==> i == 0
  {
    LastStartAtOrBefore(segments, x, |segments|).GetOr(0)
  }

  /** A larger x never selects an earlier segment. */
  lemma SegmentIndexMonotone(segments: seq<Segment>, x1: real, x2: real)
    requires ChartView.NonEmptySegments(segments) && |segments| > 0 && x1 <= x2
    ensures SegmentIndex(segments, x1) <= SegmentIndex(segments, x2)
  {
    var i1 := SegmentIndex(segments, x1);
    if segments[i1][0].x <= x1 {
      assert segments[i1][0].x <= x2;
    }
  }

  /** `i` is the segment index of the earliest data point nearest to `qx`. */
  ghost predicate SegmentOfNearest(segments: seq<Segment>, qx: real, i: nat)
    requires ChartView.NonEmptySegments(segments) && |segments| > 0
  {
    exists k ::
      && EarliestNearest(Flatten(segments), qx, k)
      && i == SegmentIndex(segments, Flatten(segments)[k].x)
  }

  /**
   * What reading a touch needs: at least one segment, none empty, and a
   * rectangle of non-zero size to map the touch back with.
   */
  ghost predicate TouchReady(segments: seq<Segment>, rect: Rect) {
    ChartView.NonEmptySegments(segments) && |segments| > 0 && rect.width != 0.0 && rect.height != 0.0
  }

  /**
   * The segment a touch at visual location `v` selects: its data-space x,
   * the nearest data point to that, and the segment holding it.
   */
  function TouchSegmentIndex(segments: seq<Segment>, v: Point, w: Window, rect: Rect): (i: nat)
    requires TouchReady(segments, rect)
    ensures i < |segments|
    ensures SegmentOfNearest(segments, ChartView.DataPoint(v, w, rect).x, i)
  {
    var points := Flatten(segments);
    assert |points| >= |segments[0]|;
    SegmentIndex(segments, SelectedDataPoint(points, ChartView.DataPoint(v, w, rect).x).x)
  }

  /** Touches further right select segments no further left. */
  lemma TouchSegmentIndexMonotone(segments: seq<Segment>, u: Point, v: Point, w: Window, rect: Rect)
    requires ChartView.NonEmptySegments(segments) && |segments| > 0
    requires rect.width > 0.0 && rect.height > 0.0 && w.XRange() >= 0.0 && u.x <= v.x
    ensures TouchSegmentIndex(segments, u, w, rect) <= TouchSegmentIndex(segments, v, w, rect)
  {
    var points := Flatten(segments);
    assert |points| >= |segments[0]|;
    ChartView.DataPointOrder(u, v, w, rect);
    var qu, qv := ChartView.DataPoint(u, w, rect).x, ChartView.DataPoint(v, w, rect).x;
    SelectedDataPointMonotone(points, qu, qv);
    SegmentIndexMonotone(segments, SelectedDataPoint(points, qu).x, SelectedDataPoint(points, qv).x);
  }

  // ---------------------------------------------------------------------
  // SelectionState and the touch handlers
  // ---------------------------------------------------------------------

  /** A touch's identity; `UITouch` objects compare by identity. */
  type TouchId = nat

  datatype SelectionState = Unselected | Single(touch: TouchId) | Range(left: TouchId, right: TouchId)

  /** The touches a state holds. */
  function Held(s: SelectionState): set<TouchId> {
    match s
    case Unselected => {}
    case Single(t) => {t}
    case Range(l, r) => {l, r}
  }

  /** A range holds two different touches. */
  predicate WellFormed(s: SelectionState) {
    s.Range? ==> s.left != s.right
  }

  /** The new state after a touch event, and whether the segments are selected again for it. */
  datatype Transition = Transition(state: SelectionState, reselect: bool)

  /** A `Set<UITouch>` listed in its iteration order: no touch twice. */
  ghost predicate Distinct(touches: seq<TouchId>) {
    forall t :: multiset(touches)[t] <= 1
  }

  /** `touches.sorted(by: touchSorter)`: ordered by the current x location. */
  function SortTouches(touches: seq<TouchId>, loc: TouchId -> Point): (r: seq<TouchId>)
    ensures Sorting.SortedBy(r, t => loc(t).x)
    ensures multiset(r) == multiset(touches) && |r| == |touches|
  {
    Sorting.SortBy(touches, t => loc(t).x)
  }

  /** A sorted list of at least two distinct touches starts with two different touches. */
  lemma FirstTwoDiffer(r: seq<TouchId>)
    requires Distinct(r) && |r| >= 2
    ensures r[0] != r[1]
  {
    assert r == [r[0], r[1]] + r[2..];
    var m := multiset(r);
    assert m == multiset{r[0], r[1]} + multiset(r[2..]);
    assert m[r[0]] <= 1;
  }

  /**
   * `touchesBegan`: from no selection one new touch is selected, or the two
   * leftmost of several; a single touch and the leftmost new touch form a
   * range ordered by x; a range ignores new touches. An empty set of
   * touches changes nothing.
   */
  function Began(state: SelectionState, touches: seq<TouchId>, loc: TouchId -> Point): (t: Transition)
    requires Distinct(touches)
    ensures touches == [] ==> t == Transition(state, false)
    ensures touches != [] ==> t.reselect
    ensures state.Unselected? && |touches| == 1 ==> t.state == Single(touches[0])
    ensures state.Unselected? && |touches| >= 2 ==>
      && t.state.Range?
      && t.state.left in touches && t.state.right in touches && t.state.left != t.state.right
      && (forall u :: u in touches ==> loc(t.state.left).x <= loc(u).x)
      && (forall u :: u in touches && u != t.state.left ==> loc(t.state.right).x <= loc(u).x)
    ensures state.Single? && touches != [] ==>
      && t.state.Range?
      && multiset{t.state.left, t.state.right} == multiset{state.touch, Leftmost(touches, loc)}
      && loc(t.state.left).x <= loc(t.state.right).x
    ensures state.Range? ==> t.state == state
  {
    if touches == [] then Transition(state, false)
    else
      var sorted := SortTouches(touches, loc);
      match state
      case Unselected =>
        if |sorted| == 1 then
          assert sorted[0] in multiset(touches);
          Transition(Single(sorted[0]), true)
        else
          TwoLeftmost(touches, sorted, loc);
          Transition(Range(sorted[0], sorted[1]), true)
      case Single(held) =>
        var (left, right) := SortPair(held, sorted[0], loc);
        Transition(Range(left, right), true)
      case Range(_, _) => Transition(state, true)
  }

  /** The first two of the sorted touches are two different touches, the leftmost and the leftmost of the rest. */
  lemma TwoLeftmost(touches: seq<TouchId>, sorted: seq<TouchId>, loc: TouchId -> Point)
    requires Distinct(touches) && |touches| >= 2 && sorted == SortTouches(touches, loc)
    ensures sorted[0] in touches && sorted[1] in touches && sorted[0] != sorted[1]
    ensures forall u :: u in touches ==> loc(sorted[0]).x <= loc(u).x
    ensures forall u :: u in touches && u != sorted[0] ==> loc(sorted[1]).x <= loc(u).x
  {
    assert sorted[0] in multiset(touches) && sorted[1] in multiset(touches);
    FirstTwoDiffer(sorted);
    forall u | u in touches && u != sorted[0]
      ensures loc(sorted[1]).x <= loc(u).x
    {
      assert u in multiset(sorted);
      var j :| 0 <= j < |sorted| && sorted[j] == u;
    }
    Sorting.SortedFirstIsLeast(touches, sorted, t => loc(t).x);
  }

  /** `[a, b].sorted(by: touchSorter)`: the same two touches, the one further left first. */
  function SortPair(a: TouchId, b: TouchId, loc: TouchId -> Point): (p: (TouchId, TouchId))
    ensures multiset{p.0, p.1} == multiset{a, b}
    ensures (p.0 == a && p.1 == b) || (p.0 == b && p.1 == a)
    ensures loc(p.0).x <= loc(p.1).x
  {
    var pair := SortTouches([a, b], loc);
    assert pair == [pair[0], pair[1]];
    assert multiset{pair[0], pair[1]} == multiset{a, b};
    (pair[0], pair[1])
  }

  /** The leftmost of a non-empty list of touches, as the sort puts it first. */
  function Leftmost(touches: seq<TouchId>, loc: TouchId -> Point): (t: TouchId)
    requires touches != []
    ensures t in touches && forall u :: u in touches ==> loc(t).x <= loc(u).x
  {
    var sorted := SortTouches(touches, loc);
    Sorting.SortedFirstIsLeast(touches, sorted, u => loc(u).x);
    sorted[0]
  }

  /**
   * `touchesMoved`: a single touch is selected again when it moved; a range
   * with a moved touch is re-ordered by the new locations and selected
   * again. Nothing else changes.
   */
  function Moved(state: SelectionState, touches: set<TouchId>, loc: TouchId -> Point): (t: Transition)
    ensures Held(t.state) == Held(state)
    ensures t.reselect <==> Held(state) * touches != {}
    ensures !state.Range? ==> t.state == state
    ensures state.Range? ==>
      && t.state.Range?
      && multiset{t.state.left, t.state.right} == multiset{state.left, state.right}
    ensures state.Range? && t.reselect ==> loc(t.state.left).x <= loc(t.state.right).x
    ensures !t.reselect ==> t.state == state
  {
    HeldTouched(state, touches);
    match state
    case Unselected => Transition(state, false)
    case Single(held) => Transition(state, held in touches)
    case Range(l, r) =>
      if l in touches || r in touches then
        var (left, right) := SortPair(l, r, loc);
        Transition(Range(left, right), true)
      else Transition(state, false)
  }

  /** Some held touch is among `touches` exactly when the state's own touches are. */
  lemma HeldTouched(state: SelectionState, touches: set<TouchId>)
    ensures Held(state) * touches != {} <==> match state
      case Unselected => false
      case Single(t) => t in touches
      case Range(l, r) => l in touches || r in touches
  {
    match state
    case Unselected =>
    case Single(t) =>
      assert t in touches ==> t in Held(state) * touches;
    case Range(l, r) =>
      assert l in touches ==> l in Held(state) * touches;
      assert r in touches ==> r in Held(state) * touches;
  }

  /**
   * `handleFinishedTouches`, for both ended and cancelled touches: ending
   * the single touch clears the selection; ending one touch of a range
   * keeps the other; ending both clears it. Touches that are not held
   * change nothing.
   */
  function Finished(state: SelectionState, touches: set<TouchId>): (t: Transition)
    ensures Held(state) * touches == {} ==> t == Transition(state, false)
    ensures t.reselect <==> t.state != state
    ensures state.Range? && state.left in touches && state.right !in touches ==> t.state == Single(state.right)
    ensures state.Range? && state.left !in touches && state.right in touches ==> t.state == Single(state.left)
  {
    HeldTouched(state, touches);
    match state
    case Unselected => Transition(state, false)
    case Single(held) =>
      if held in touches then Transition(Unselected, true) else Transition(state, false)
    case Range(l, r) =>
      match (l in touches, r in touches)
      case (true, true) => Transition(Unselected, true)
      case (true, false) => Transition(Single(r), true)
      case (false, true) => Transition(Single(l), true)
      case (false, false) => Transition(state, false)
  }

  /** Finishing touches releases exactly those touches from a well-formed state. */
  lemma FinishedReleases(state: SelectionState, touches: set<TouchId>)
    requires WellFormed(state)
    ensures Held(Finished(state, touches).state) == Held(state) - touches
    ensures WellFormed(Finished(state, touches).state)
  {
    match state
    case Unselected =>
    case Single(held) =>
    case Range(l, r) =>
      if l in touches && r in touches {
        assert Held(state) - touches == {};
      } else if l in touches {
        assert Held(state) - touches == {r};
      } else if r in touches {
        assert Held(state) - touches == {l};
      } else {
        assert Held(state) - touches == Held(state);
      }
  }

  /** Moving touches keeps a state well-formed: a range keeps its two touches. */
  lemma MovedKeepsWellFormed(state: SelectionState, touches: set<TouchId>, loc: TouchId -> Point)
    requires WellFormed(state)
    ensures WellFormed(Moved(state, touches, loc).state)
  {
    if state.Range? {
      var t := Moved(state, touches, loc).state;
      assert t.left in multiset{state.left, state.right} && t.right in multiset{state.left, state.right};
    }
  }

  /** Beginning touches keeps a state well-formed when the new touches are not already held. */
  lemma TransitionsKeepWellFormed(state: SelectionState, touches: seq<TouchId>, loc: TouchId -> Point)
    requires WellFormed(state) && Distinct(touches)
    requires forall u :: u in touches ==> u !in Held(state)
    ensures WellFormed(Began(state, touches, loc).state)
  {
    if state.Single? && touches != [] {
      var m := Leftmost(touches, loc);
      var t := Began(state, touches, loc).state;
      assert state.touch != m;
      assert t.left in multiset{state.touch, m} && t.right in multiset{state.touch, m};
    }
  }

  // ---------------------------------------------------------------------
  // selectSegments(for:)
  // ---------------------------------------------------------------------

  /**
   * `Array(segments[left...right])`: the run of segments from index `left`
   * to index `right`, both included. A reversed closed range traps in the
   * source; `None` stands for that trap.
   */
  function Run(segments: seq<Segment>, left: nat, right: nat): (r: Option<seq<Segment>>)
    requires left < |segments| && right < |segments|
    ensures r.Some? <==> left <= right
    ensures r.Some? ==>
      && |r.value| == right - left + 1
      && (forall k :: 0 <= k < |r.value| ==> r.value[k] == segments[left + k])
  {
    if left <= right then Some(segments[left..right + 1]) else None
  }

  /**
   * The segments a state selects: none, the one under the single touch, or
   * the run from the left touch's segment to the right touch's. Only a
   * touch reads the data: with no data point the source's `first!` traps,
   * and so does a reversed range; `None` stands for either trap.
   */
  function SelectedSegments(segments: seq<Segment>, state: SelectionState, loc: TouchId -> Point, w: Window, rect: Rect)
    : (r: Option<seq<Segment>>)
    requires !state.Unselected? ==>
      ChartView.NonEmptySegments(segments) && rect.width != 0.0 && rect.height != 0.0
    ensures state.Unselected? ==> r == Some([])
    ensures !state.Unselected? && |segments| == 0 ==> r.None?
    ensures state.Single? && |segments| > 0 ==>
      r == Some([segments[TouchSegmentIndex(segments, loc(state.touch), w, rect)]])
    ensures state.Range? && |segments| > 0 ==> r == Run(segments,
      TouchSegmentIndex(segments, loc(state.left), w, rect), TouchSegmentIndex(segments, loc(state.right), w, rect))
    ensures r.Some? ==> forall k :: 0 <= k < |r.value| ==> r.value[k] in segments
  {
    match state
    case Unselected => Some([])
    case Single(t) =>
      if |segments| == 0 then None
      else Some([segments[TouchSegmentIndex(segments, loc(t), w, rect)]])
    case Range(l, r) =>
      if |segments| == 0 then None
      else Run(segments, TouchSegmentIndex(segments, loc(l), w, rect), TouchSegmentIndex(segments, loc(r), w, rect))
  }

  /**
   * A range ordered by x never traps: it selects a non-empty run of
   * segments. Every range that `Began` or `Moved` selects is so ordered.
   */
  lemma OrderedRangeSelects(segments: seq<Segment>, l: TouchId, r: TouchId, loc: TouchId -> Point, w: Window, rect: Rect)
    requires ChartView.NonEmptySegments(segments) && |segments| > 0
    requires rect.width > 0.0 && rect.height > 0.0 && w.XRange() >= 0.0
    requires loc(l).x <= loc(r).x
    ensures SelectedSegments(segments, Range(l, r), loc, w, rect).Some?
    ensures |SelectedSegments(segments, Range(l, r), loc, w, rect).value| >= 1
  {
    TouchSegmentIndexMonotone(segments, loc(l), loc(r), w, rect);
  }

  /**
   * After `Began`, the selection is defined: from no selection or a single
   * touch, and from a range ordered by x, which `Began` keeps.
   */
  lemma BeganSelects(segments: seq<Segment>, state: SelectionState, touches: seq<TouchId>, loc: TouchId -> Point, w: Window, rect: Rect)
    requires ChartView.NonEmptySegments(segments) && |segments| > 0
    requires rect.width > 0.0 && rect.height > 0.0 && w.XRange() >= 0.0
    requires Distinct(touches)
    requires state.Range? ==> loc(state.left).x <= loc(state.right).x
    ensures SelectedSegments(segments, Began(state, touches, loc).state, loc, w, rect).Some?
  {
    var t := Began(state, touches, loc).state;
    if t.Range? {
      OrderedRangeSelects(segments, t.left, t.right, loc, w, rect);
    }
  }

  /** After `Moved` reselects, the selection is defined. */
  lemma MovedSelects(segments: seq<Segment>, state: SelectionState, touches: set<TouchId>, loc: TouchId -> Point, w: Window, rect: Rect)
    requires ChartView.NonEmptySegments(segments) && |segments| > 0
    requires rect.width > 0.0 && rect.height > 0.0 && w.XRange() >= 0.0
    requires Moved(state, touches, loc).reselect
    ensures SelectedSegments(segments, Moved(state, touches, loc).state, loc, w, rect).Some?
  {
    var t := Moved(state, touches, loc).state;
    if t.Range? {
      OrderedRangeSelects(segments, t.left, t.right, loc, w, rect);
    }
  }

  /** What `selectSegments` does with the layers: fade the chart back in, or highlight a compound path. */
  datatype Highlight = DeselectAll | HighlightPath(path: seq<PathElement>)

  /**
   * `selectSegments(for:)`: no selected segment deselects everything;
   * otherwise the selected segments are drawn as one compound path, one
   * subpath per segment. `None` is a trap of `SelectedSegments`.
   */
  function SelectSegments(segments: seq<Segment>, state: SelectionState, loc: TouchId -> Point, w: Window, rect: Rect)
    : (r: Option<Highlight>)
    requires !state.Unselected? ==>
      ChartView.NonEmptySegments(segments) && rect.width != 0.0 && rect.height != 0.0
    ensures state.Unselected? ==> r == Some(DeselectAll)
    ensures var selected := SelectedSegments(segments, state, loc, w, rect);
      match r
      case None => selected.None?
      case Some(DeselectAll) => selected == Some([])
      case Some(HighlightPath(path)) =>
        && selected.Some? && |selected.value| >= 1
        && path == ChartView.CompoundPath(selected.value, w, rect)
        && Moves(path) == |selected.value|
    ensures state.Single? && |segments| > 0 ==> r.Some? && r.value.HighlightPath? && Moves(r.value.path) == 1
  {
    match SelectedSegments(segments, state, loc, w, rect)
    case None => None
    case Some(selected) =>
      if selected == [] then Some(DeselectAll)
      else
        assert forall i :: 0 <= i < |selected| ==> selected[i] in segments;
        Some(HighlightPath(ChartView.CompoundPath(selected, w, rect)))
  }
}

=== FILE: sorting.dfy ===
/**
 * The sort the chart code applies to point lists and touch lists:
 * `sorted { key($0) < key($1) }`. Swift's sort is not stable, so every
 * property stated about a sorted result in this model is one that holds of
 * any ordering of the input by the key (sortedness and the multiset of
 * elements), never a fixed placement of equal keys. The model sorts by
 * insertion.
 */
module Sorting {

  ghost predicate SortedBy<T>(s: seq<T>, key: T -> real) {
    forall i, j :: 0 <= i < j < |s| ==> key(s[i]) <= key(s[j])
  }

  /** Inserts `p` in front of the first element whose key is not below it. */
  function Insert<T>(p: T, s: seq<T>, key: T -> real): (r: seq<T>)
    requires SortedBy(s, key)
    ensures SortedBy(r, key)
    ensures multiset(r) == multiset(s) + multiset{p}
    ensures |r| == |s| + 1
  {
    if s == [] then [p]
    else if key(p) <= key(s[0]) then [p] + s
    else
      var rest := Insert(p, s[1..], key);
      assert s == [s[0]] + s[1..];
      assert forall j :: 0 <= j < |rest| ==> key(s[0]) <= key(rest[j]) by {
        forall j | 0 <= j < |rest|
          ensures key(s[0]) <= key(rest[j])
        {
          assert rest[j] in multiset(rest);
          if rest[j] != p {
            assert rest[j] in multiset(s[1..]);
            var k :| 0 <= k < |s[1..]| && s[1..][k] == rest[j];
            assert s[k + 1] == rest[j];
          }
        }
      }
      ConsSorted(s[0], rest, key);
      [s[0]] + rest
  }

  /** Putting a key no larger than every key of a sorted list in front keeps it sorted. */
  lemma ConsSorted<T>(h: T, s: seq<T>, key: T -> real)
    requires SortedBy(s, key)
    requires forall j :: 0 <= j < |s| ==> key(h) <= key(s[j])
    ensures SortedBy([h] + s, key)
  {
    var r := [h] + s;
    forall i, j | 0 <= i < j < |r|
      ensures key(r[i]) <= key(r[j])
    {
      if i > 0 {
        assert r[i] == s[i - 1] && r[j] == s[j - 1];
      }
    }
  }

  function SortBy<T>(s: seq<T>, key: T -> real): (r: seq<T>)
    ensures SortedBy(r, key)
    ensures multiset(r) == multiset(s)
    ensures |r| == |s|
  {
    if s == [] then []
    else
      assert s == [s[0]] + s[1..];
      Insert(s[0], SortBy(s[1..], key), key)
  }

  /** A key no larger than the head of a sorted list is inserted in front. */
  lemma InsertFront<T>(p: T, s: seq<T>, key: T -> real)
    requires SortedBy(s, key) && (s == [] || key(p) <= key(s[0]))
    ensures Insert(p, s, key) == [p] + s
  {
  }

  /** A key above the head of a sorted list is inserted into its tail. */
  lemma InsertLater<T>(p: T, s: seq<T>, key: T -> real)
    requires SortedBy(s, key) && s != [] && key(s[0]) < key(p)
    ensures SortedBy(s[1..], key)
    ensures Insert(p, s, key) == [s[0]] + Insert(p, s[1..], key)
  {
  }

  /** Sorting a non-empty list inserts its head into its sorted tail. */
  lemma SortByCons<T>(s: seq<T>, key: T -> real)
    requires s != []
    ensures SortBy(s, key) == Insert(s[0], SortBy(s[1..], key), key)
  {
  }

  /** The first element of a sorted permutation carries the least key. */
  lemma SortedFirstIsLeast<T>(s: seq<T>, r: seq<T>, key: T -> real)
    requires SortedBy(r, key) && multiset(r) == multiset(s) && |r| > 0
    ensures r[0] in s && forall p :: p in s ==> key(r[0]) <= key(p)
  {
    assert r[0] in multiset(r);
    forall p | p in s
      ensures key(r[0]) <= key(p)
    {
      assert p in multiset(s);
      var k :| 0 <= k < |r| && r[k] == p;
    }
  }

  /** The last element of a sorted permutation carries the greatest key. */
  lemma SortedLastIsGreatest<T>(s: seq<T>, r: seq<T>, key: T -> real)
    requires SortedBy(r, key) && multiset(r) == multiset(s) && |r| > 0
    ensures r[|r| - 1] in s && forall p :: p in s ==> key(p) <= key(r[|r| - 1])
  {
    assert r[|r| - 1] in multiset(r);
    forall p | p in s
      ensures key(p) <= key(r[|r| - 1])
    {
      assert p in multiset(s);
      var k :| 0 <= k < |r| && r[k] == p;
    }
  }
}

=== FILE: sparkline.dfy ===
/**
 * The sparkline renderer: it draws a view model's reference lines and then
 * its data sets into a graphics context, as a sequence of drawing commands.
 * It maps points like the earlier chart view, into a size reduced by 2-point
 * insets on every side but without moving the origin.
 */
module Sparkline {
  import opened Geometry
  import ChartView
  import LegacyChartView

  /** The inset on each side, `UIEdgeInsets(top: 2, left: 2, bottom: 2, right: 2)`. */
  const Inset: real := 2.0

  datatype Size = Size(width: real, height: real)

  /** What the renderer reads from its view model: the window, the data sets' segments and the reference lines. */
  datatype SparklineModel = SparklineModel(window: Window, dataSets: seq<seq<Segment>>, referenceLines: seq<ReferenceLine>)

  /** The context calls the renderer makes, without the colour, width, cap and join settings. */
  datatype DrawCommand = Move(to: Point) | AddLine(to: Point) | StrokePath

  /** `sizeWithInsets`: the given size less the insets on both sides. */
  function SizeWithInsets(size: Size): (r: Size)
    ensures r.width + Inset + Inset == size.width && r.height + Inset + Inset == size.height
  {
    Size(size.width - Inset - Inset, size.height - Inset - Inset)
  }

  /** `visualPoint(from:size:)`: the same mapping as the earlier chart view's, into the given size. */
  function VisualPoint(p: Point, w: Window, size: Size): (v: Point)
    ensures v == LegacyChartView.VisualPoint(p, w, size.width, size.height)
    ensures w.XRange() <= 0.0 ==> v.x == 0.0
    ensures w.YRange() <= 0.0 ==> v.y == size.height / 2.0
  {
    ChartView.VisualPoint(p, w, ViewBounds(size.width, size.height))
  }

  // ---------------------------------------------------------------------
  // Reference lines
  // ---------------------------------------------------------------------

  /**
   * The y of a reference line: the same flipped scaling as `VisualPoint`
   * but without the guard for a window without y extent, so the range must
   * not be 0.
   */
  function ReferenceLineY(line: ReferenceLine, w: Window, size: Size): (y: real)
    requires w.YRange() != 0.0
    ensures (size.height - y) * w.YRange() == (line.y - w.minY) * size.height
    ensures w.YRange() > 0.0 ==> y == VisualPoint(Point(0.0, line.y), w, size).y
  {
    var scaledY := (line.y - w.minY) / w.YRange();
    assert scaledY * w.YRange() == line.y - w.minY;
    assert (scaledY * size.height) * w.YRange() == (scaledY * w.YRange()) * size.height;
    size.height - scaledY * size.height
  }

  /** `draw(_ referenceLine:)`: a horizontal stroke across the whole width at the line's y. */
  function DrawReferenceLine(line: ReferenceLine, w: Window, size: Size): (r: seq<DrawCommand>)
    requires w.YRange() != 0.0
    ensures var y := ReferenceLineY(line, w, size);
      PathOf(r) == [MoveTo(Point(0.0, y)), LineTo(Point(size.width, y))]
    ensures Strokes(r) == 1 && r[|r| - 1] == StrokePath
  {
    var y := ReferenceLineY(line, w, size);
    var r := [Move(Point(0.0, y)), AddLine(Point(size.width, y)), StrokePath];
    assert r[1..][1..] == [StrokePath] && r[1..][1..][1..] == [];
    assert PathOf(r[1..][1..]) == [] && Strokes(r[1..][1..]) == 1;
    assert PathOf(r[1..]) == [LineTo(Point(size.width, y))] && Strokes(r[1..]) == 1;
    r
  }

  /** `draw(_ referenceLines:)`: every line in order, three commands each. */
  function DrawReferenceLines(lines: seq<ReferenceLine>, w: Window, size: Size): (r: seq<DrawCommand>)
    requires lines != [] ==> w.YRange() != 0.0
    ensures |r| == 3 * |lines| && Strokes(r) == |lines|
  {
    if lines == [] then []
    else
      var line := DrawReferenceLine(lines[0], w, size);
      StrokesAppend(line, DrawReferenceLines(lines[1..], w, size));
      line + DrawReferenceLines(lines[1..], w, size)
  }

  /** Line `k` is drawn by commands `3k`, `3k + 1` and `3k + 2`: a move to its left end, a line to its right end, a stroke. */
  lemma {:induction false} ReferenceLinesLayout(lines: seq<ReferenceLine>, w: Window, size: Size, k: nat)
    requires lines != [] ==> w.YRange() != 0.0
    requires k < |lines|
    ensures var r, y := DrawReferenceLines(lines, w, size), ReferenceLineY(lines[k], w, size);
      && r[3 * k] == Move(Point(0.0, y))
      && r[3 * k + 1] == AddLine(Point(size.width, y))
      && r[3 * k + 2] == StrokePath
  {
    if k > 0 {
      ReferenceLinesLayout(lines[1..], w, size, k - 1);
      var rest := DrawReferenceLines(lines[1..], w, size);
      assert DrawReferenceLines(lines, w, size) == DrawReferenceLine(lines[0], w, size) + rest;
      assert 3 * k == 3 * (k - 1) + 3;
      assert lines[1..][k - 1] == lines[k];
    }
  }

  // ---------------------------------------------------------------------
  // Data sets
  // ---------------------------------------------------------------------

  /** A path's elements as context calls. */
  function AsCommands(path: seq<PathElement>): (r: seq<DrawCommand>)
    ensures |r| == |path|
    ensures forall i :: 0 <= i < |path| ==> r[i] == (if path[i].MoveTo? then Move(path[i].to) else AddLine(path[i].to))
  {
    seq(|path|, i requires 0 <= i < |path| => if path[i].MoveTo? then Move(path[i].to) else AddLine(path[i].to))
  }

  /** The path element a command adds, if any. */
  function Traced(c: DrawCommand): seq<PathElement> {
    match c
    case Move(p) => [MoveTo(p)]
    case AddLine(p) => [LineTo(p)]
    case StrokePath => []
  }

  /** The path a command sequence traces, strokes left out. */
  function PathOf(cmds: seq<DrawCommand>): seq<PathElement> {
    if cmds == [] then [] else Traced(cmds[0]) + PathOf(cmds[1..])
  }

  /** The number of strokes in a command sequence. */
  function Strokes(cmds: seq<DrawCommand>): nat {
    if cmds == [] then 0 else (if cmds[0].StrokePath? then 1 else 0) + Strokes(cmds[1..])
  }

  lemma {:induction false} PathOfAppend(a: seq<DrawCommand>, b: seq<DrawCommand>)
    ensures PathOf(a + b) == PathOf(a) + PathOf(b)
  {
    if a == [] {
      assert a + b == b;
    } else {
      var ab := a + b;
      assert ab[0] == a[0] && ab[1..] == a[1..] + b;
      PathOfAppend(a[1..], b);
      calc {
        PathOf(ab);
        Traced(a[0]) + PathOf(a[1..] + b);
        Traced(a[0]) + (PathOf(a[1..]) + PathOf(b));
        (Traced(a[0]) + PathOf(a[1..])) + PathOf(b);
        PathOf(a) + PathOf(b);
      }
    }
  }

  lemma {:induction false} StrokesAppend(a: seq<DrawCommand>, b: seq<DrawCommand>)
    ensures Strokes(a + b) == Strokes(a) + Strokes(b)
  {
    if a == [] {
      assert a + b == b;
    } else {
      assert (a + b)[1..] == a[1..] + b;
      StrokesAppend(a[1..], b);
    }
  }

  /** Reading a path back from its commands gives the path, with no strokes. */
  lemma {:induction false} PathOfAsCommands(path: seq<PathElement>)
    ensures PathOf(AsCommands(path)) == path
    ensures Strokes(AsCommands(path)) == 0
  {
    if path != [] {
      assert AsCommands(path)[1..] == AsCommands(path[1..]);
      PathOfAsCommands(path[1..]);
    }
  }

  /**
   * `draw(_ segment:)`: a move to the first visual point, a line to each
   * further one, then a stroke. The first point is read with `first!`.
   */
  function DrawSegment(segment: Segment, w: Window, size: Size): (r: seq<DrawCommand>)
    requires |segment| > 0
    ensures PathOf(r) == ChartView.PathFrom(segment, w, ViewBounds(size.width, size.height))
    ensures Strokes(r) == 1 && r[|r| - 1] == StrokePath
  {
    var path := ChartView.PathFrom(segment, w, ViewBounds(size.width, size.height));
    PathOfAsCommands(path);
    PathOfAppend(AsCommands(path), [StrokePath]);
    StrokesAppend(AsCommands(path), [StrokePath]);
    AsCommands(path) + [StrokePath]
  }

  /** `connect(with:)` after a segment: a line to the visual first point of `segments[index]`, when that segment exists and is not empty. */
  function ConnectTo(segments: seq<Segment>, index: nat, w: Window, size: Size): (r: seq<DrawCommand>)
    ensures r == [] <==> index >= |segments| || segments[index] == []
    ensures r != [] ==> r == [AddLine(VisualPoint(segments[index][0], w, size))]
  {
    if index < |segments| && segments[index] != [] then [AddLine(VisualPoint(segments[index][0], w, size))] else []
  }

  /** `segments.filter { !$0.isEmpty }` */
  function NonEmpty(segments: seq<Segment>): (r: seq<Segment>)
    ensures ChartView.NonEmptySegments(r) && |r| <= |segments|
    ensures ChartView.NonEmptySegments(segments) ==> r == segments
  {
    if segments == [] then []
    else if segments[0] == [] then NonEmpty(segments[1..])
    else [segments[0]] + NonEmpty(segments[1..])
  }

  /**
   * The loop of `draw(_ segments:)` from the `i`-th non-empty segment on:
   * draw it, then connect to `segments[i + 1]`. The index counts the
   * FILTERED segments but picks the next segment from the unfiltered list.
   */
  function DrawFrom(filtered: seq<Segment>, segments: seq<Segment>, i: nat, w: Window, size: Size): (r: seq<DrawCommand>)
    requires ChartView.NonEmptySegments(filtered) && i <= |filtered|
    ensures Strokes(r) == |filtered| - i
    decreases |filtered| - i
  {
    if i == |filtered| then []
    else
      var rest := DrawFrom(filtered, segments, i + 1, w, size);
      var head := DrawSegment(filtered[i], w, size) + ConnectTo(segments, i + 1, w, size);
      StrokesAppend(DrawSegment(filtered[i], w, size), ConnectTo(segments, i + 1, w, size));
      StrokesAppend(head, rest);
      head + rest
  }

  /** `draw(_ segments:)`: one stroke per non-empty segment. */
  function DrawSegments(segments: seq<Segment>, w: Window, size: Size): (r: seq<DrawCommand>)
    ensures Strokes(r) == |NonEmpty(segments)|
    ensures segments == [] ==> r == []
  {
    DrawFrom(NonEmpty(segments), segments, 0, w, size)
  }

  /**
   * Over segments that are all non-empty the trace follows the compound
   * path of the multi-segment chart view: each segment's subpath, then a
   * line to the first point of the next.
   */
  lemma {:induction false} DrawFromTracesCompoundPath(segments: seq<Segment>, i: nat, w: Window, size: Size)
    requires ChartView.NonEmptySegments(segments) && i <= |segments|
    ensures PathOf(DrawFrom(segments, segments, i, w, size))
      == ChartView.CompoundPath(segments[i..], w, ViewBounds(size.width, size.height))
    decreases |segments| - i
  {
    var rect := ViewBounds(size.width, size.height);
    if i < |segments| {
      DrawFromTracesCompoundPath(segments, i + 1, w, size);
      var seg, conn := DrawSegment(segments[i], w, size), ConnectTo(segments, i + 1, w, size);
      PathOfAppend(seg + conn, DrawFrom(segments, segments, i + 1, w, size));
      PathOfAppend(seg, conn);
      assert segments[i..][1..] == segments[i + 1..];
      assert PathOf(conn) == ChartView.Connective(segments[i..], w, rect);
    }
  }

  /** Over non-empty segments, the segments' trace is the compound path. */
  lemma DrawSegmentsTracesCompoundPath(segments: seq<Segment>, w: Window, size: Size)
    requires ChartView.NonEmptySegments(segments)
    ensures PathOf(DrawSegments(segments, w, size)) == ChartView.CompoundPath(segments, w, ViewBounds(size.width, size.height))
  {
    DrawFromTracesCompoundPath(segments, 0, w, size);
    assert segments[0..] == segments;
  }

  /**
   * With an empty segment in the middle the unfiltered index shows: after
   * the first segment nothing is connected (its successor is the empty
   * one), and after the last segment a line goes back to that segment's
   * own first point (the unfiltered list's next entry is itself).
   */
  lemma ConnectiveUsesUnfilteredIndex(a: Point, b: Point, w: Window, size: Size)
    ensures var va, vb := VisualPoint(a, w, size), VisualPoint(b, w, size);
      DrawSegments([[a], [], [b]], w, size) == [Move(va), StrokePath, Move(vb), StrokePath, AddLine(vb)]
  {
    var segments := [[a], [], [b]];
    var rect := ViewBounds(size.width, size.height);
    assert NonEmpty(segments) == [[a], [b]] by {
      assert segments[1..] == [[], [b]];
      assert segments[1..][1..] == [[b]];
    }
    var f := NonEmpty(segments);
    var va, vb := VisualPoint(a, w, size), VisualPoint(b, w, size);
    assert ChartView.PathFrom([a], w, rect) == [MoveTo(va)];
    assert ChartView.PathFrom([b], w, rect) == [MoveTo(vb)];
    assert DrawSegment([a], w, size) == [Move(va), StrokePath];
    assert DrawSegment([b], w, size) == [Move(vb), StrokePath];
    assert DrawFrom(f, segments, 2, w, size) == [];
    assert DrawFrom(f, segments, 1, w, size) == [Move(vb), StrokePath, AddLine(vb)];
    assert DrawFrom(f, segments, 0, w, size) == [Move(va), StrokePath] + [] + DrawFrom(f, segments, 1, w, size);
  }

  /** The strokes the data sets take: one per non-empty segment of each. */
  function StrokeCount(dataSets: seq<seq<Segment>>): nat {
    if dataSets == [] then 0 else |NonEmpty(dataSets[0])| + StrokeCount(dataSets[1..])
  }

  /** `draw(_ dataSets:)`: every data set's segments, in order. The argument is ignored; the view model's data sets are drawn. */
  function DrawDataSets(ignored: seq<seq<Segment>>, model: SparklineModel, size: Size): (r: seq<DrawCommand>)
    ensures Strokes(r) == StrokeCount(model.dataSets)
  {
    DrawAll(model.dataSets, model.window, size)
  }

  function DrawAll(dataSets: seq<seq<Segment>>, w: Window, size: Size): (r: seq<DrawCommand>)
    ensures Strokes(r) == StrokeCount(dataSets)
  {
    if dataSets == [] then []
    else
      StrokesAppend(DrawSegments(dataSets[0], w, size), DrawAll(dataSets[1..], w, size));
      DrawSegments(dataSets[0], w, size) + DrawAll(dataSets[1..], w, size)
  }

  /**
   * `draw(in:size:)`: the reference lines first, three commands each, then
   * the data sets, all within the inset size.
   */
  function Draw(model: SparklineModel, size: Size): (r: seq<DrawCommand>)
    requires model.referenceLines != [] ==> model.window.YRange() != 0.0
    ensures var lines, inner := model.referenceLines, SizeWithInsets(size);
      && |r| >= 3 * |lines|
      && r[..3 * |lines|] == DrawReferenceLines(lines, model.window, inner)
      && r[3 * |lines|..] == DrawDataSets(model.dataSets, model, inner)
      && Strokes(r) == |lines| + StrokeCount(model.dataSets)
  {
    var inner := SizeWithInsets(size);
    var refs := DrawReferenceLines(model.referenceLines, model.window, inner);
    var r := refs + DrawDataSets(model.dataSets, model, inner);
    StrokesAppend(refs, DrawDataSets(model.dataSets, model, inner));
    assert r[..|refs|] == refs;
    r
  }
}

=== FILE: view_model.dfy ===
/**
 * The view model of the multi-segment chart view: the data window, the
 * styled data set and an optional styled reference line.
 */
module ViewModel {
  import opened Optional
  import opened Geometry
  import ChartData
  import Extent

  datatype StyledDataSet = StyledDataSet(dataSet: ChartData.DataSet, lineStyle: LineStyle)

  datatype StyledReferenceLine = StyledReferenceLine(referenceLine: ChartData.DataReferenceLine, lineStyle: LineStyle)

  datatype ViewModel = ViewModel(minX: real, maxX: real, minY: real, maxY: real,
                                 styledDataSet: StyledDataSet, styledReferenceLine: Option<StyledReferenceLine>)
  {
    function Window(): Window { Geometry.Window(minX, maxX, minY, maxY) }

    /** `xRange` */
    function XRange(): (r: real)
      ensures minX + r == maxX
    {
      maxX - minX
    }

    /** `yRange` */
    function YRange(): (r: real)
      ensures minY + r == maxY
    {
      maxY - minY
    }

    /** `segments`: the data set's segments. */
    function Segments(): (r: seq<Segment>)
      ensures r == styledDataSet.dataSet.segments
    {
      styledDataSet.dataSet.segments
    }

    /** `allDataPoints`: every point of every segment, in order. */
    function AllDataPoints(): (r: seq<Point>)
      ensures r == ChartData.AllDataPoints(styledDataSet.dataSet)
      ensures forall p :: p in r <==> exists i :: 0 <= i < |Segments()| && p in Segments()[i]
    {
      Flatten(Segments())
    }
  }

  /**
   * `init`: the data set and reference line are stored as given; each
   * missing bound is derived from all data points.
   */
  function Init(minX: Option<real>, maxX: Option<real>, minY: Option<real>, maxY: Option<real>,
                styledDataSet: StyledDataSet, styledReferenceLine: Option<StyledReferenceLine>): (vm: ViewModel)
    ensures vm.styledDataSet == styledDataSet && vm.styledReferenceLine == styledReferenceLine
    ensures vm.Window() == Extent.DeriveWindow(ChartData.AllDataPoints(styledDataSet.dataSet), minX, maxX, minY, maxY)
  {
    var w := Extent.DeriveWindow(Flatten(styledDataSet.dataSet.segments), minX, maxX, minY, maxY);
    ViewModel(w.minX, w.maxX, w.minY, w.maxY, styledDataSet, styledReferenceLine)
  }

  /** Without explicit bounds every data point lies inside the window, and both ranges are non-negative. */
  lemma DerivedBoundsEncloseData(styledDataSet: StyledDataSet, styledReferenceLine: Option<StyledReferenceLine>)
    ensures var vm := Init(None, None, None, None, styledDataSet, styledReferenceLine);
      && vm.XRange() >= 0.0 && vm.YRange() >= 0.0
      && forall p :: p in vm.AllDataPoints() ==> vm.minX <= p.x <= vm.maxX && vm.minY <= p.y <= vm.maxY
  {
    var vm := Init(None, None, None, None, styledDataSet, styledReferenceLine);
    var points := Flatten(styledDataSet.dataSet.segments);
    var w := Extent.DeriveWindow(points, None, None, None, None);
    assert vm.AllDataPoints() == points;
    assert vm.minX == w.minX && vm.maxX == w.maxX && vm.minY == w.minY && vm.maxY == w.maxY;
    Extent.DerivedWindowEnclosesPoints(points);
    Extent.DerivedRangesNonNegative(points);
  }

  /** Without explicit bounds, a data set of one point gives zero ranges. */
  lemma SinglePointZeroRanges(p: Point, style: LineStyle, line: Option<ChartData.DataReferenceLine>,
                              styledReferenceLine: Option<StyledReferenceLine>)
    ensures var vm := Init(None, None, None, None, StyledDataSet(ChartData.DataSet([[p]], line), style), styledReferenceLine);
      vm.XRange() == 0.0 && vm.YRange() == 0.0
  {
    assert Flatten([[p]]) == [p];
    Extent.SinglePointWindow(p);
  }

  /** Without points or explicit bounds the window is all zeros. */
  lemma NoDataZeroWindow(style: LineStyle, line: Option<ChartData.DataReferenceLine>, styledReferenceLine: Option<StyledReferenceLine>)
    ensures Init(None, None, None, None, StyledDataSet(ChartData.DataSet([], line), style), styledReferenceLine).Window()
      == Geometry.Window(0.0, 0.0, 0.0, 0.0)
  {
  }
}
